=== FILE: README.md ===
# A Dafny model of the downloader's decision core

The system is an asynchronous bulk downloader with two halves:

- a **fetcher** (`Fetcher.py`) pages through each creator's posts and puts new files on a bounded download queue;
- a **scraper** (`Main.py`) pages through rule34, e621 and coomer/kemono listings and records which files are new.

Both halves decide what is "new" through a fingerprint, the file name without its suffix, but not the same way. The scraper names the recorded file after the whole fingerprint and skips it when `FileHash in self.CachedHashes` holds. `CachedHashes` is the platform → creator → hashes cache of `cached_hashes.json`, so that `in` sees only its keys, the platform names, and as written no real file is ever skipped (see "## Findings"). The fetcher and downloader save a file as its first 30 fingerprint characters plus its extension, and treat a file as known when one of the known hashes is a prefix of its fingerprint; the hashes read back from a remote listing are such 30-character prefixes. A **downloader** takes files off the queue. It admits or refuses each one and, after a successful transfer and rename, records its fingerprint.

This project models those decisions as pure Dafny over explicit inputs: HTTP answers, remote listings, disk readings and the outcomes of chunk transfers and renames. It proves what the code promises about them.

Modules, one per component:

| module | file | models |
|---|---|---|
| `Wrappers` | wrappers.dfy | `Option` |
| `Paths` | paths.dfy | Python's `str.rfind`, `split('/')[-1]`, `pathlib` `name`/`stem`/`suffix`, `os.path.splitext` |
| `Fingerprints` | fingerprints.dfy | `ExtractHash`, the remote-listing rule of `LookupHashes`, prefix matching, on-disk naming, the dedup round trip |
| `Producer` | producer.dfy | `Fetcher.Posts`: one page, the queue-full break, the stop rule, pagination, backpressure |
| `Downloader` | downloader.dfy | `Downloader.Download` / `FetchFile` admission and finalise, the low-disk floor, a sequential `ProcessDownloads` worker |
| `Records` | records.dfy | what `Fetcher.Scrape` records for one URL, and the limit-guarded loop over a page |
| `Booru` | booru.dfy | the rule34 and e621 branches of `Fetcher.Scrape` |
| `Kemono` | kemono.dfy | the coomer/kemono branch of `Fetcher.Scrape`, as written and corrected |
| `HashCache` | hash_cache.dfy | `DownloadManager.SaveNewHashes` |
| `Duplicates` | duplicates.dfy | `FindDuplicates` of `CheckForDuplicateIds` |

Conventions:

- Limits and counters are `int`, so a limit that goes negative is visible.
- Byte counts and queue sizes are `nat`.
- Thresholds written with floats in the source (`0.8 * maxsize`, `0.1 * free`) are stated in exact integer arithmetic.
- `Main.py`'s `CachedHashes` is consulted only with `in`, so the scraper branches take the set of strings that `in` accepts (`cached`). Every property they state holds for any such set: `Records.CacheTest` (the cache's platform keys) as written, and `Records.CachedFor` (one creator's hashes of one platform) as corrected.

## Model

| member | source | states |
|---|---|---|
| `Paths.LastSegment` | Main.py:708 | the segment holds no slash, ends the URL and is preceded by a slash unless it is the whole URL |
| `Paths.Stem` | Fetcher.py:287 | the stem followed by the suffix gives back the path's final name, and holds no slash |
| `Paths.Suffix` | Fetcher.py:408 | the suffix is empty or a dot followed by at least one character and no further dot |
| `Paths.SplitExt` | Main.py:763 | the extension is a tail of the URL and, when present, starts with a dot |
| `Fingerprints.ExtractHash` | Main.py:704-709 | `None` exactly for a missing or empty URL, and a hash never contains a slash |
| `Fingerprints.ExtractHashShape` | Main.py:708-709 | the hash is the whole last segment when it has no dot, otherwise exactly the part before its last dot |
| `Fingerprints.RecordedNameKeepsUrlFileName` | Main.py:763 | hash followed by `splitext` extension is the URL's own file name, unless the hash is all dots |
| `Fingerprints.Truncate` | Fetcher.py:289 | the key is a prefix of the hash of length `min(len, 30)` |
| `Fingerprints.Contribution` | Fetcher.py:287-289 | a listed file adds nothing exactly when its stem is shorter than 30, otherwise only 30-character keys |
| `Fingerprints.ProcessCreator` | Fetcher.py:277-292 | after walking a listing the set is the old set plus every long stem cut to 30, and each added key has length 30 |
| `Fingerprints.ListingStep` | Fetcher.py:286-289 | one more listed file adds exactly its contribution to the listing's keys |
| `Fingerprints.ListedKeysHaveFixedLength` | Fetcher.py:288-289 | every key a listing contributes is exactly 30 characters |
| `Fingerprints.ShortStemContributesNothing` | Fetcher.py:288 | a file whose stem is shorter than 30 leaves the listing's keys unchanged |
| `Fingerprints.LookupHashes` | Fetcher.py:297-323 | with creators to look up, the result is exactly the keys of the readable listings, all of 30 characters, and the current set is dropped; without any creator the current set is kept |
| `Fingerprints.KnownIsMonotonic` | Fetcher.py:400 | once a stem is known, adding keys never makes it unknown |
| `Fingerprints.StoredNameStem` | Fetcher.py:533-544 | a file saved as `Hash[:30] + Extension` has `Hash[:30]` as its stem |
| `Fingerprints.DedupRoundTrip` | Fetcher.py:286-289 | once the saved name of a remote file appears in a listing, the producer's prefix check recognises the file's full stem |
| `Producer.ScanCharacterised` | Fetcher.py:395-442 | a page breaks exactly when it has more new main files than free queue slots; otherwise all references are counted, new ones recorded and new main files enqueued, and with a break everything before the dropped main file is handled and nothing after it |
| `Producer.EnqueuedAreUnknown` | Fetcher.py:400-415 | nothing whose stem matches a known hash is put on the queue |
| `Producer.PageCounters` | Fetcher.py:395-442 | new plus skipped equals looked at, every new item but a dropped main file adds to `Counter`, and without a break every reference is looked at |
| `Producer.QueueStaysBounded` | Fetcher.py:411-415 | the queue never holds more than its capacity after a page |
| `Producer.FetchPage` | Fetcher.py:384-457 | the counters of a 200 answer with posts are those of the page; the next page is fetched exactly when the status is 200, the list is non-empty and at least 10 new files were found; every other path leaves the counters untouched |
| `Producer.ContinuesIffEnoughNew` | Fetcher.py:395-452 | when the queue has room for every new main file, pagination continues exactly when the page holds at least 10 references with unknown stems |
| `Producer.ContinuingPageFoundNewFiles` | Fetcher.py:447-452 | a page that continues pagination added at least nine files to `Counter` |
| `Producer.RunCreator` | Fetcher.py:459-460 | the page counter never exceeds the number of pages requested |
| `Producer.RunRespectsHaltAndStopRule` | Fetcher.py:374-460 | no page is requested after the halt flag is seen, and every page advanced past met the stop rule |
| `Producer.HaltStopsPagination` | Fetcher.py:374 | a halt seen before page `i` means page `i` and later ones are never requested |
| `Producer.RunEnqueuesOnlyUnknown` | Fetcher.py:400-415 | over a whole creator nothing known is enqueued |
| `Producer.RunStopsAtFirstFinalPage` | Fetcher.py:447-460 | the first page that does not continue is the last one requested |
| `Producer.ResumeBelowPause` | Fetcher.py:379-381 | the resume bound lies strictly below the pause bound, so no size both pauses and resumes |
| `Producer.ConfiguredThresholds` | Fetcher.py:365-381 | with the queue of 2500 the fetcher pauses from 2000 items and resumes at 400 or fewer |
| `Producer.SmallQueueThresholds` | Fetcher.py:365-381 | with a queue of 10 it pauses from 8 items and resumes only at 1 or fewer |
| `Producer.AwaitResume` | Fetcher.py:381-382 | the pause ends at the first polled size at or below the resume bound, and never before |
| `Downloader.LowDiskIsMonotonic` | Fetcher.py:521 | less free space never turns a low-disk reading into a healthy one |
| `Downloader.LowDiskFloor` | Fetcher.py:53 | the disk is healthy exactly when free space reaches both 5 GB and a tenth of the initial free space, rounded up |
| `Downloader.FetchFile` | Fetcher.py:481-502 | the sum of the chunk lengths, or 0 when a stop is seen between chunks or an exception is raised |
| `Downloader.Download` | Fetcher.py:504-569 | the admission order and its outcomes, low disk stopping both sides, a positive size exactly when admitted, transferred and renamed, the hash recorded only then, and stop flags never cleared |
| `Downloader.ProcessDownloads` | Fetcher.py:614-620 | over a sequence of jobs no hash is downloaded twice, nothing already held is downloaded, the hash set grows by exactly the downloaded hashes, a stopped downloader downloads nothing, after a job that found the disk low no later job downloads anything, and the size history is exactly the positive sizes in job order |
| `Downloader.PositivesAreTheSizes` | Fetcher.py:617-620 | the size history holds every positive size returned and nothing else |
| `Records.Outcome` | Main.py:755-768 | a URL yields an entry exactly when its hash is non-empty and not accepted by the cache test, and the entry's path is the directory, the hash and the URL's extension |
| `Records.RecordedPathKeepsFileName` | Main.py:763 | a recorded path is the directory, a slash and the URL's own file name, whenever the hash is not made of dots only |
| `Records.TakePosts` | Main.py:753-768 | each recorded post costs exactly one from each limit, nothing is recorded once either limit is exhausted, and non-negative limits stay non-negative |
| `Records.TakePostsIsPrefix` | Main.py:753-768 | the page records its new entries in page order, a prefix of them that is cut short only by an exhausted limit |
| `Records.TakeCount` | Main.py:754-767 | a page records exactly the smallest of the two limits and its number of new entries |
| `Records.PageEntriesAreNew` | Main.py:756-764 | every recorded entry has a non-empty hash the cache test does not accept, that is the hash of one of the page's URLs |
| `Records.CachedFor` | Main.py:421-453 | the corrected lookup accepts exactly the hashes the cache holds under the given platform and creator |
| `Records.CacheTestSeesPlatformsOnly` | Main.py:758-760 | as written, every URL whose non-empty hash is not a platform name yields an entry, whatever hashes the cache holds |
| `Records.CachedForSkipsKnownFiles` | Main.py:758-760 | with the corrected lookup, a URL yields an entry exactly when its hash is non-empty and not among that creator's cached hashes |
| `Records.CachedFileRecordedAgain` | Main.py:758-760 | with `abc` cached for creator `x` of rule34, `https://rule34.xxx/abc.jpg` is recorded as written and skipped by the corrected lookup |
| `Booru.Visit` | Main.py:808-826 | one page records as many files as the loop's limit-guarded count, raising `FilesDownloaded` by that count, and all of them new |
| `Booru.Run` | Main.py:741-787 | the page index advances exactly when the page recorded at least `ParamsLimit` files, a failed or empty page changes nothing, limits never go negative, and the files recorded equal the decrease of either limit |
| `Booru.RunRecordsOnlyNew` | Main.py:811-822 | every file a whole run records is new and carries its own URL's hash |
| `Kemono.Hoster` | Main.py:851 | OnlyFans and Fansly are served by `coomer`, everything else by `kemono` |
| `Kemono.AttachLoop` | Main.py:860-874 | limits stay non-negative, each recorded attachment costs one from each, and only attachments with an entry are recorded |
| `Kemono.BreakMatchesSkip` | Main.py:860-862 | breaking on an exhausted limit records the same files as skipping the remaining posts |
| `Kemono.MainFileAsWritten` | Main.py:876-889 | the main file is recorded even when a limit is already exhausted, driving it negative |
| `Kemono.PostsAsWritten` | Main.py:857-889 | limits fall by the number of files recorded, by at most one below zero |
| `Kemono.ScrapeAsWritten` | Main.py:850-899 | from non-negative limits the branch can end with a limit of -1 and never lower, and a failed request records nothing |
| `Kemono.MissingPathRecordsHostName` | Main.py:864-870 | an attachment without a path is recorded as a file whose hash is the host name |
| `Kemono.PathlessUrl` | Main.py:864-865 | the pathless URL `https://<host>.suNone` has the host as hash and `.suNone` as extension |
| `Kemono.EmptyPathRecordsHostName` | Main.py:864-870 | an attachment whose path is the empty string is recorded as the file `https://<host>.su`, whose hash is the host name |
| `Kemono.EmptyPathUrl` | Main.py:864-865 | the empty-path URL `https://<host>.su` has the host as hash and `.su` as extension |
| `Kemono.MainFileOverrunsLimit` | Main.py:876-888 | with a global limit of 1, one post with a new attachment and a new main file records two files and returns -1 |
| `Kemono.PostPaths` | Main.py:860-879 | the paths of a post are exactly its attachments' paths and its main file's path |
| `Kemono.AllPaths` | Main.py:857-879 | the paths of a post list are exactly the paths of its posts |
| `Kemono.CorrectedOutcome` | Main.py:864-867 | a missing or empty path yields nothing; any other path gives the same outcome as written, a new entry whose URL is that path's |
| `Kemono.Attachments` | Main.py:860-870 | each attachment's corrected outcome is its outcome as written when it has a non-empty path and nothing otherwise, and every entry is new with the URL of a non-empty path among the attachments |
| `Kemono.MainFile` | Main.py:877-889 | the corrected main-file step records the main file's entry exactly when there is one and both limits are positive, and keeps non-negative limits non-negative |
| `Kemono.PostStep` | Main.py:858-889 | one post of the corrected loop records its files against both limits, keeps them non-negative and adds only new entries whose URLs are those of non-empty paths the post holds |
| `Kemono.PostStepIsAttachLoop` | Main.py:858-889 | one corrected post records what the limit-guarded loop over the corrected outcomes of its attachments and then its main file records |
| `Kemono.Posts` | Main.py:857-889 | the corrected loop keeps limits non-negative and records only new entries whose URLs are those of non-empty paths some post holds |
| `Kemono.Scrape` | Main.py:850-899 | the corrected branch records at most as many files as either limit, each new and named by a non-empty attachment or main-file path of the post list; it records the first of the files the code as written finds for those paths, in order, stopping short of all of them only on an exhausted limit; a failed request records nothing |
| `Kemono.WithPath` | Main.py:857-879 | the present paths of a list are exactly its non-empty paths |
| `Kemono.PostsIsAttachLoop` | Main.py:857-889 | the corrected loop over posts records what the limit-guarded loop over the corrected outcomes of every path of every post records, in order; post boundaries play no part |
| `Kemono.CorrectedSkipsPathless` | Main.py:860-884 | the files among the corrected outcomes are exactly those the code as written finds for the non-empty paths, in order |
| `Kemono.PathlessPostContrast` | Main.py:860-870 | for a post whose only attachment has a missing or an empty path, the code as written records one file named by no path of the list, while the corrected branch records nothing |
| `Kemono.CorrectedStopsAtLimit` | Main.py:858-889 | on the overrunning input the corrected branch records one file and stops at a global limit of 0 |
| `Kemono.AgreesWhenPathsPresent` | Main.py:860-870 | when every attachment has a non-empty path the corrected outcomes are those of the code as written |
| `HashCache.SaveNewHashes` | Main.py:433-450 | the merged cache is the reference union: every platform and creator of either side, holding the union of the cached and new hashes |
| `HashCache.MergePlatform` | Main.py:442-450 | one platform's creators after the inner loop are the reference union of its cached and new creators |
| `HashCache.EmptyMergeIsNoOp` | Main.py:435 | merging no new hashes leaves the cache unchanged |
| `HashCache.MergedEntryIsUnion` | Main.py:438-450 | each entry after the merge is exactly the old hashes together with the new ones |
| `HashCache.UntouchedPlatform` | Main.py:438-441 | a platform without new hashes keeps its entry |
| `HashCache.UntouchedCreator` | Main.py:442-450 | a creator without new hashes keeps its entry |
| `HashCache.MergeIsIdempotent` | Main.py:447-450 | merging the same new hashes twice gives the cache of merging once |
| `HashCache.MergeKeepsCached` | Main.py:446-450 | no cached hash is lost by a merge |
| `Duplicates.FindDuplicates` | Main.py:914-923 | the result is the reference list of ids repeating an earlier id up to case, and `Seen` ends with every lower-cased id |
| `Duplicates.SeenIffRepeat` | Main.py:918-919 | an id's lower-cased form is already in `Seen` exactly when an earlier id has the same lower-cased form |
| `Duplicates.RepeatsAreExactlyTheRepeats` | Main.py:917-922 | a string is reported exactly when it occurs at a position that repeats an earlier id up to case |
| `Duplicates.RepeatsCount` | Main.py:917-922 | each id is either reported or adds a new lower-cased form, so the two counts add up to the number of ids |
| `Duplicates.NoRepeatsIffDistinct` | Main.py:914-923 | nothing is reported exactly when no two ids are equal up to case |
| `Duplicates.UniqueIsNotReported` | Main.py:919-922 | an id whose lower-cased form occurs only once is never reported |

## Left out

- Concurrency is not modelled: asyncio tasks, semaphores, the worker pool and queue `join`. The download queue is not drained while a page is processed. `ProcessDownloads` is a single sequential worker over the jobs taken off the queue.
- HTTP, cookies, proxies, the tenacity retry decorator, `random`/`gc`, rclone and the filesystem. Their results are inputs: responses, listings, chunks, disk readings, the rename outcome.
- `CalculateSpacePercentage`, `CalculateTransfers`, `Humanize` and all logging. These are float formatting and UI only.
- Request URLs and parameters (`pid`, `page`, `o`, `PageOffset`) are not modelled. Only the page index they are built from is kept.
- `Downloader.LowDisk` uses exact arithmetic where the source compares against the float `max(5e+9, free * 0.1)`. Float rounding at the boundary is not modelled.
- `Producer.ShouldPause`, `Producer.MayResume`: the bounds are exact rationals of `0.8 * maxsize` and `0.8 * 0.2 * maxsize`; float rounding is not modelled.
- The backpressure pause is not threaded into the page loop: `Producer.RunCreator` takes the queue size each page starts from as an input that the pause rule does not constrain, and `Producer.ShouldPause`, `Producer.MayResume` and `Producer.AwaitResume` state the pause and resume rule on their own.
- `Downloader.Download`: a halt seen between chunks (`Chunk.haltBefore`) is the downloader's `Stopped` flag, which the code sets only in the low-disk branch (Fetcher.py:521-524), here that of another, concurrent job. The model takes it as an input of the transfer and does not write it back into this worker's `State`, so `Downloader.ProcessDownloads` does not promise that later jobs see that halt; a low disk found by one of its own jobs does stop the later ones.
- The backpressure wait polls the queue size without looking at the stop flag. `Producer.AwaitResume` follows the code, and its `None` result covers a wait that never ends.
- `Producer.RunCreator` and `Booru.Run` take one input per page requested. Running out of supplied inputs ends the model's run, which the source has no counterpart for.
- `Producer.RunCreator`: an exception raised after part of a page was handled is modelled only as a whole-page failure (`Raised`). The same holds for the scraper branches, where a post list with a malformed post raises mid-page.
- `Booru.Run`: a 200 answer whose body is truthy but not a post list is modelled as `Failed`.
- `Duplicates.Lower` lower-cases ASCII letters only, not full Unicode `str.lower`.
- `HashCache.SaveNewHashes`: each creator's list is a set, since `list(set(...))` dedups it and its order is unspecified. The JSON write and the summary log are not modelled, and `NewHashes` is taken as an input.
- The orchestration in `Main.py` (`DownloadManager`, configuration, favorites, the proxy checker) is not modelled.
- The downloader's hash set is kept apart from the fetcher's. `LookupHashes` rebinds `Fetcher.Hashes` after the downloader captured it, so the two are not assumed shared.

Two behaviours of the code worth noting:

- Resume bound. The producer resumes at `0.8 * 0.2 * maxsize` (Fetcher.py:379-381). For a queue of 10 that is 1 item, as `Producer.SmallQueueThresholds` states.
- coomer/kemono limits. The branch in `Main.py` can end with a negative limit (see Findings).

## Findings

| source | as written | input that shows it | evidently intended | confidence | as-written member | corrected member |
|---|---|---|---|---|---|---|
| Main.py:864-884 | an attachment or main file without `path` is rendered into the URL as `https://<host>.suNone`, and one with an empty `path` as `https://<host>.su`; the hash of either is the host name, so a file named `coomer`/`kemono` is recorded | one post with attachment `{}` (or `{"path": ""}`) and no file, under positive limits, host name not accepted by the cache test | skip an attachment or file whose path is missing or empty | medium, not executed | `Kemono.MissingPathRecordsHostName` | `Kemono.Scrape` |
| Main.py:876-888 | the main-file step does not recheck the limits after the attachments, so a post can record one file past an exhausted limit and return a negative `GlobalLimit` | `GlobalLimit = 1`, `CreatorLimit = 2`, one post with attachment `/a.jpg` and file `/b.jpg`, nothing cached | record the main file only while both limits are positive, as the attachment loop does | high, not executed | `Kemono.MainFileOverrunsLimit` | `Kemono.CorrectedStopsAtLimit` |
| Main.py:758-760 | `FileHash in self.CachedHashes` tests the keys of the platform → creator → hashes cache, which are platform names, so a file downloaded on an earlier run is recorded again (the same test is at Main.py:816, :867 and :882) | cache `{"rule34": {"x": ["abc"]}}`, post URL `https://rule34.xxx/abc.jpg` | skip a hash the cache holds for this platform and creator | high, not executed | `Records.CachedFileRecordedAgain` | `Records.CachedForSkipsKnownFiles` |

=== FILE: booru.dfy ===
/**
 * The rule34 and e621 branches of `Fetcher.Scrape` (Main.py): page after page
 * of posts, each post's file URL turned into a hash, and every new hash
 * recorded as a file while both the global and the creator limit are
 * positive. The HTTP answers are inputs, one per page requested.
 */
module Booru {
  import opened Wrappers
  import opened Paths
  import opened Fingerprints
  import opened Records

  /** The two boards served by the paginated branches. */
  datatype Board = Rule34 | E621

  /** The `limit` request parameter: posts asked for per page. */
  function ParamsLimit(b: Board): nat {
    match b
    case Rule34 => 1000
    case E621 => 320
  }

  /**
   * What one page request brings back. `Failed` stands for a non-200 status, a
   * body that is not a post list (for e621, no `posts` key) and an exception
   * raised while reading it; `Listing` carries each post's file URL.
   */
  datatype Response = Failed | Listing(urls: seq<Option<string>>)

  /** The scraper's counters: the two limits, the page index, files found and the recorded list. */
  datatype Scrape = Scrape(global: int, creator: int, page: nat, downloaded: nat, result: seq<Entry>)

  /** The entries of `result` from index `from` on are all new. */
  predicate NewFrom(cached: set<string>, result: seq<Entry>, from: nat) {
    forall k :: from <= k < |result| ==> NewEntry(cached, result[k])
  }

  /** One page's posts walked with the current limits, its files appended to the result. */
  function Visit(st: Scrape, cached: set<string>, dir: string, urls: seq<Option<string>>): (r: Scrape)
    ensures r.page == st.page && st.result <= r.result
    ensures |r.result| - |st.result| == r.downloaded - st.downloaded
              == st.global - r.global == st.creator - r.creator
              == |TakePosts(st.global, st.creator, Outcomes(cached, dir, urls)).entries|
    ensures 0 <= st.global ==> 0 <= r.global
    ensures 0 <= st.creator ==> 0 <= r.creator
    ensures NewFrom(cached, r.result, |st.result|)
  {
    var t := TakePosts(st.global, st.creator, Outcomes(cached, dir, urls));
    PageEntriesAreNew(st.global, st.creator, cached, dir, urls);
    var r := Scrape(t.global, t.creator, st.page, st.downloaded + |t.entries|, st.result + t.entries);
    assert forall k :: |st.result| <= k < |r.result| ==> r.result[k] in t.entries;
    r
  }

  /**
   * The `while GlobalLimit > 0 and CreatorLimit > 0` loop. A failed or empty
   * page ends it; a page that recorded fewer than `ParamsLimit` files ends it
   * after its files are recorded; otherwise the page index advances. Running
   * out of supplied responses also ends the model's run.
   */
  function Run(b: Board, st: Scrape, cached: set<string>, dir: string, responses: seq<Response>): (r: Scrape)
    ensures st.page <= r.page
    ensures r.page - st.page <= |responses|
    ensures st.result <= r.result
    ensures |r.result| - |st.result| == r.downloaded - st.downloaded
              == st.global - r.global == st.creator - r.creator
    ensures 0 <= st.global ==> 0 <= r.global
    ensures 0 <= st.creator ==> 0 <= r.creator
    ensures r.downloaded - st.downloaded >= ParamsLimit(b) * (r.page - st.page)
    ensures st.page < r.page <==>
              st.global > 0 && st.creator > 0 && 0 < |responses| && responses[0].Listing? && |responses[0].urls| > 0
              && |TakePosts(st.global, st.creator, Outcomes(cached, dir, responses[0].urls)).entries| >= ParamsLimit(b)
    ensures 0 < |responses| && (responses[0].Failed? || responses[0] == Listing([])) ==> r == st
    decreases |responses|
  {
    if !(st.global > 0 && st.creator > 0) || |responses| == 0 then st
    else match responses[0]
      case Failed => st
      case Listing(urls) =>
        if |urls| == 0 then st
        else
          var next := Visit(st, cached, dir, urls);
          if |next.result| - |st.result| < ParamsLimit(b) then next
          else
            var r := Run(b, next.(page := st.page + 1), cached, dir, responses[1..]);
            assert ParamsLimit(b) * (r.page - st.page) == ParamsLimit(b) * (r.page - (st.page + 1)) + ParamsLimit(b);
            r
  }

  /**
   * Every file a run records has a non-empty hash that was not cached and is
   * the hash of the file's own URL.
   */
  lemma {:induction false} RunRecordsOnlyNew(b: Board, st: Scrape, cached: set<string>, dir: string, responses: seq<Response>)
    ensures NewFrom(cached, Run(b, st, cached, dir, responses).result, |st.result|)
    decreases |responses|
  {
    var r := Run(b, st, cached, dir, responses);
    if st.global > 0 && st.creator > 0 && |responses| > 0 && responses[0].Listing? && |responses[0].urls| > 0 {
      var next := Visit(st, cached, dir, responses[0].urls);
      if |next.result| - |st.result| >= ParamsLimit(b) {
        var after := next.(page := st.page + 1);
        RunRecordsOnlyNew(b, after, cached, dir, responses[1..]);
        NewFromJoin(cached, r.result, |st.result|, |next.result|);
      }
    }
  }

  /** Two adjacent new stretches make one. */
  lemma NewFromJoin(cached: set<string>, result: seq<Entry>, from: nat, mid: nat)
    requires from <= mid <= |result|
    requires forall k :: from <= k < mid ==> NewEntry(cached, result[k])
    requires NewFrom(cached, result, mid)
    ensures NewFrom(cached, result, from)
  {
  }
}

=== FILE: downloader.dfy ===
/**
 * The consumer side (`Downloader` in Fetcher.py): admission checks in a fixed
 * order, the chunked transfer to a scratch path, and the finalising rename
 * after which the fingerprint is recorded. Disk space, the transfer and the
 * rename are inputs; the downloader's own stop flag, the fetcher's stop flag
 * and the downloader's hash set are the state.
 */
module Downloader {
  import opened Producer

  /** The absolute floor of free disk space (`5e+9` bytes). */
  const MinFreeBytes: nat := 5_000_000_000

  /**
   * `free < LowDiskSpaceThreshold` with `LowDiskSpaceThreshold = max(5e+9,
   * initialFree * 0.1)`, in exact arithmetic.
   */
  predicate LowDisk(free: nat, initialFree: nat) {
    free < MinFreeBytes || 10 * free < initialFree
  }

  /** Less free space never turns a low-disk reading into a healthy one. */
  lemma LowDiskIsMonotonic(free: nat, less: nat, initialFree: nat)
    requires LowDisk(free, initialFree) && less <= free
    ensures LowDisk(less, initialFree)
  {
  }

  /** The floor is the larger of 5 GB and a tenth of the space free at start. */
  lemma LowDiskFloor(free: nat, initialFree: nat)
    ensures !LowDisk(free, initialFree) <==> free >= MinFreeBytes && free >= initialFree / 10 + (if initialFree % 10 == 0 then 0 else 1)
  {
  }

  /**
   * The downloader's view of the shared flags. The downloader's hash set is
   * kept apart from the fetcher's: the source binds it once at construction and
   * the fetcher later rebinds its own.
   */
  datatype State = State(stopped: bool, fetcherStopped: bool, hashes: set<string>)

  /** One chunk of the response body, with the value of the stop flag seen just before writing it. */
  datatype Chunk = Chunk(length: nat, haltBefore: bool)

  function Sum(chunks: seq<Chunk>): nat {
    if |chunks| == 0 then 0 else Sum(chunks[..|chunks| - 1]) + chunks[|chunks| - 1].length
  }

  predicate HaltDuring(chunks: seq<Chunk>) {
    exists j :: 0 <= j < |chunks| && chunks[j].haltBefore
  }

  /**
   * `FetchFile`: the sum of the chunk lengths written, or 0 when the stop flag
   * is seen between chunks or any exception is raised (`raised`); every
   * exception is caught inside, so the retry decorator never fires.
   */
  method FetchFile(chunks: seq<Chunk>, raised: bool) returns (size: nat)
    ensures size == (if raised || HaltDuring(chunks) then 0 else Sum(chunks))
  {
    var total := 0;
    var i := 0;
    while i < |chunks|
      invariant 0 <= i <= |chunks|
      invariant total == Sum(chunks[..i])
      invariant forall j :: 0 <= j < i ==> !chunks[j].haltBefore
    {
      if chunks[i].haltBefore {
        return 0;
      }
      assert chunks[..i + 1][..i] == chunks[..i];
      total := total + chunks[i].length;
      i := i + 1;
    }
    assert chunks[..i] == chunks;
    size := if raised then 0 else total;
  }

  /** What the world answers while one file is handled. */
  datatype Env = Env(free: nat, chunks: seq<Chunk>, raised: bool, renameOk: bool)

  /** The file passes the three admission checks, in their order. */
  predicate Admitted(s: State, f: FileData, initialFree: nat, env: Env) {
    !s.stopped && f.hash !in s.hashes && !LowDisk(env.free, initialFree)
  }

  /**
   * `Download`: stopped, already hashed and low disk each end the call with 0;
   * low disk also sets both stop flags (the `LowDiskSpace` it raises is caught
   * by the method's own handler). Otherwise the file is fetched to the scratch
   * path and, when bytes arrived and the rename succeeded, its hash is recorded
   * and the byte count returned.
   */
  method Download(s: State, f: FileData, initialFree: nat, env: Env) returns (size: nat, s': State)
    ensures s.stopped ==> size == 0 && s' == s
    ensures !s.stopped && f.hash in s.hashes ==> size == 0 && s' == s
    ensures !s.stopped && f.hash !in s.hashes && LowDisk(env.free, initialFree) ==>
              size == 0 && s' == s.(stopped := true, fetcherStopped := true)
    ensures size > 0 <==> Admitted(s, f, initialFree, env) && !env.raised && !HaltDuring(env.chunks)
                          && Sum(env.chunks) > 0 && env.renameOk
    ensures size > 0 ==> size == Sum(env.chunks) && s' == s.(hashes := s.hashes + {f.hash})
    ensures size == 0 && Admitted(s, f, initialFree, env) ==> s' == s
    ensures s.stopped ==> s'.stopped
    ensures s.fetcherStopped ==> s'.fetcherStopped
    ensures s.hashes <= s'.hashes && s'.hashes - s.hashes <= {f.hash}
  {
    if s.stopped {
      return 0, s;
    }
    if f.hash in s.hashes {
      return 0, s;
    }
    if LowDisk(env.free, initialFree) {
      return 0, s.(stopped := true, fetcherStopped := true);
    }
    var fileSize := FetchFile(env.chunks, env.raised);
    if fileSize > 0 {
      if !env.renameOk {
        return 0, s;
      }
      return fileSize, s.(hashes := s.hashes + {f.hash});
    }
    return 0, s;
  }

  /** One file taken from the queue together with what the world answers for it. */
  datatype Job = Job(file: FileData, env: Env)

  /** The hashes of the jobs whose download returned a positive size. */
  function Finished(jobs: seq<Job>, sizes: seq<nat>): set<string>
    requires |sizes| == |jobs|
  {
    if |jobs| == 0 then {}
    else
      var n := |jobs| - 1;
      Finished(jobs[..n], sizes[..n]) + (if sizes[n] > 0 then {jobs[n].file.hash} else {})
  }

  /** `Finished` over one more job and its size. */
  lemma FinishedStep(jobs: seq<Job>, sizes: seq<nat>, i: nat, size: nat)
    requires i < |jobs| && |sizes| == i
    ensures Finished(jobs[..i + 1], sizes + [size])
            == Finished(jobs[..i], sizes) + (if size > 0 then {jobs[i].file.hash} else {})
  {
    assert jobs[..i + 1][..i] == jobs[..i];
    assert (sizes + [size])[..i] == sizes;
  }

  /** No hash is downloaded after an earlier job downloaded it. */
  predicate NoRepeat(jobs: seq<Job>, sizes: seq<nat>)
    requires |sizes| <= |jobs|
  {
    forall k, j :: 0 <= k < j < |sizes| && sizes[k] > 0 && jobs[j].file.hash == jobs[k].file.hash ==> sizes[j] == 0
  }

  /** Every downloaded hash is in `hashes`. */
  predicate Recorded(hashes: set<string>, jobs: seq<Job>, sizes: seq<nat>)
    requires |sizes| <= |jobs|
  {
    forall k :: 0 <= k < |sizes| && sizes[k] > 0 ==> jobs[k].file.hash in hashes
  }

  /** Every downloaded hash was outside `hashes`. */
  predicate AllNew(hashes: set<string>, jobs: seq<Job>, sizes: seq<nat>)
    requires |sizes| <= |jobs|
  {
    forall k :: 0 <= k < |sizes| && sizes[k] > 0 ==> jobs[k].file.hash !in hashes
  }

  /** One more download keeps the three bookkeeping facts, given what `Download` promises. */
  lemma RecordStep(initial: set<string>, hashes: set<string>, next: set<string>, jobs: seq<Job>, sizes: seq<nat>, size: nat)
    requires |sizes| < |jobs| && initial <= hashes
    requires NoRepeat(jobs, sizes) && Recorded(hashes, jobs, sizes) && AllNew(initial, jobs, sizes)
    requires size > 0 ==> jobs[|sizes|].file.hash !in hashes && next == hashes + {jobs[|sizes|].file.hash}
    requires size == 0 ==> next == hashes
    ensures NoRepeat(jobs, sizes + [size]) && Recorded(next, jobs, sizes + [size]) && AllNew(initial, jobs, sizes + [size])
  {
    var ext := sizes + [size];
    forall k, j | 0 <= k < j < |ext| && ext[k] > 0 && jobs[j].file.hash == jobs[k].file.hash
      ensures ext[j] == 0
    {
      if j == |sizes| {
        assert jobs[k].file.hash in hashes;
      }
    }
  }

  /** The positive sizes of `sizes`, in order: the size history the worker keeps. */
  function Positives(sizes: seq<nat>): (r: seq<nat>)
    ensures |r| <= |sizes|
    ensures forall i :: 0 <= i < |r| ==> r[i] > 0
  {
    if |sizes| == 0 then []
    else
      var n := |sizes| - 1;
      Positives(sizes[..n]) + (if sizes[n] > 0 then [sizes[n]] else [])
  }

  /** The history holds every positive size and nothing else. */
  lemma {:induction false} PositivesAreTheSizes(sizes: seq<nat>)
    ensures forall x :: x in Positives(sizes) <==> x in sizes && x > 0
    decreases |sizes|
  {
    if |sizes| > 0 {
      var n := |sizes| - 1;
      PositivesAreTheSizes(sizes[..n]);
      assert sizes == sizes[..n] + [sizes[n]];
    }
  }

  /** One more size extends the positive sizes by it exactly when it is positive. */
  lemma PositivesStep(sizes: seq<nat>, size: nat)
    ensures Positives(sizes + [size]) == Positives(sizes) + (if size > 0 then [size] else [])
  {
    assert (sizes + [size])[..|sizes|] == sizes;
  }

  /** A hash no job downloaded is not finished. */
  lemma {:induction false} NotFinished(jobs: seq<Job>, sizes: seq<nat>, h: string)
    requires |sizes| == |jobs|
    requires forall k :: 0 <= k < |jobs| && sizes[k] > 0 ==> jobs[k].file.hash != h
    ensures h !in Finished(jobs, sizes)
    decreases |jobs|
  {
    if |jobs| > 0 {
      var n := |jobs| - 1;
      assert forall k :: 0 <= k < n ==> jobs[..n][k] == jobs[k] && sizes[..n][k] == sizes[k];
      NotFinished(jobs[..n], sizes[..n], h);
    }
  }

  /**
   * Job `i` found the disk low: its hash was neither held at the start nor
   * downloaded by an earlier job, and the free space it read was low.
   */
  predicate LowDiskAt(initial: set<string>, jobs: seq<Job>, sizes: seq<nat>, initialFree: nat, i: nat)
    requires i < |sizes| <= |jobs|
  {
    && jobs[i].file.hash !in initial
    && (forall k :: 0 <= k < i && sizes[k] > 0 ==> jobs[k].file.hash != jobs[i].file.hash)
    && LowDisk(jobs[i].env.free, initialFree)
  }

  /** After a job that found the disk low the worker is stopped, and every later job returned 0. */
  predicate StopsKept(initial: set<string>, jobs: seq<Job>, sizes: seq<nat>, initialFree: nat, stopped: bool)
    requires |sizes| <= |jobs|
  {
    && (forall i :: 0 <= i < |sizes| && LowDiskAt(initial, jobs, sizes, initialFree, i) ==> stopped)
    && (forall i, j :: 0 <= i < j < |sizes| && LowDiskAt(initial, jobs, sizes, initialFree, i) ==> sizes[j] == 0)
  }

  /** One more job keeps `StopsKept`, given what `Work` promises about the stop flag. */
  lemma StopStep(initial: set<string>, hashes: set<string>, jobs: seq<Job>, sizes: seq<nat>, initialFree: nat,
                 stopped: bool, size: nat, nextStopped: bool)
    requires |sizes| < |jobs|
    requires hashes == initial + Finished(jobs[..|sizes|], sizes)
    requires StopsKept(initial, jobs, sizes, initialFree, stopped)
    requires stopped ==> size == 0 && nextStopped
    requires !stopped && jobs[|sizes|].file.hash !in hashes && LowDisk(jobs[|sizes|].env.free, initialFree) ==> nextStopped
    ensures StopsKept(initial, jobs, sizes + [size], initialFree, nextStopped)
  {
    var ext := sizes + [size];
    var n := |sizes|;
    forall i | 0 <= i < n ensures LowDiskAt(initial, jobs, ext, initialFree, i) == LowDiskAt(initial, jobs, sizes, initialFree, i) {
      assert forall k :: 0 <= k < i ==> ext[k] == sizes[k];
    }
    if LowDiskAt(initial, jobs, ext, initialFree, n) {
      assert forall k :: 0 <= k < n && sizes[k] > 0 ==> jobs[..n][k].file.hash != jobs[n].file.hash;
      NotFinished(jobs[..n], sizes, jobs[n].file.hash);
    }
  }

  /** One job of the worker: `Download`, seen only through what the worker's books depend on. */
  method Work(s: State, job: Job, initialFree: nat) returns (size: nat, next: State)
    ensures s.stopped ==> size == 0 && next == s
    ensures size > 0 ==> job.file.hash !in s.hashes && next.hashes == s.hashes + {job.file.hash}
    ensures size == 0 ==> next.hashes == s.hashes
    ensures next.stopped && !s.stopped ==> next.fetcherStopped
    ensures s.fetcherStopped ==> next.fetcherStopped
    ensures !s.stopped && job.file.hash !in s.hashes && LowDisk(job.env.free, initialFree) ==> next.stopped
  {
    size, next := Download(s, job.file, initialFree, job.env);
  }

  /** What the worker knows after the jobs `sizes` covers: the books `ProcessDownloads` keeps. */
  predicate Books(s0: State, jobs: seq<Job>, initialFree: nat, sizes: seq<nat>, history: seq<nat>, s: State) {
    && |sizes| <= |jobs|
    && history == Positives(sizes)
    && s.hashes == s0.hashes + Finished(jobs[..|sizes|], sizes)
    && NoRepeat(jobs, sizes) && Recorded(s.hashes, jobs, sizes) && AllNew(s0.hashes, jobs, sizes)
    && (s0.stopped ==> s == s0 && forall k :: 0 <= k < |sizes| ==> sizes[k] == 0)
    && (s.stopped && !s0.stopped ==> s.fetcherStopped)
    && StopsKept(s0.hashes, jobs, sizes, initialFree, s.stopped)
  }

  /** The worker's next job: one `Download`, its size appended, and the books kept. */
  method Step(s0: State, jobs: seq<Job>, initialFree: nat, sizes: seq<nat>, history: seq<nat>, s: State)
    returns (sizes': seq<nat>, history': seq<nat>, s': State)
    requires |sizes| < |jobs| && Books(s0, jobs, initialFree, sizes, history, s)
    ensures |sizes'| == |sizes| + 1 && sizes'[..|sizes|] == sizes
    ensures Books(s0, jobs, initialFree, sizes', history', s')
  {
    var i := |sizes|;
    var size, next := Work(s, jobs[i], initialFree);
    FinishedStep(jobs, sizes, i, size);
    RecordStep(s0.hashes, s.hashes, next.hashes, jobs, sizes, size);
    PositivesStep(sizes, size);
    StopStep(s0.hashes, s.hashes, jobs, sizes, initialFree, s.stopped, size, next.stopped);
    history' := history + (if size > 0 then [size] else []);
    sizes' := sizes + [size];
    s' := next;
  }

  /**
   * `ProcessDownloads`: one worker takes jobs off the queue in order and appends
   * every positive size to the size history. No hash is downloaded twice, a
   * stopped downloader downloads nothing, the hash set grows by exactly the
   * hashes downloaded, and after a job that found the disk low no later job
   * downloads anything.
   */
  method ProcessDownloads(s0: State, jobs: seq<Job>, initialFree: nat) returns (sizes: seq<nat>, history: seq<nat>, s: State)
    ensures |sizes| == |jobs|
    ensures forall i :: 0 <= i < |history| ==> history[i] > 0
    ensures history == Positives(sizes)
    ensures s.hashes == s0.hashes + Finished(jobs, sizes)
    ensures forall i :: 0 <= i < |jobs| && sizes[i] > 0 ==> jobs[i].file.hash !in s0.hashes
    ensures forall i, j :: 0 <= i < j < |jobs| && sizes[i] > 0 && jobs[j].file.hash == jobs[i].file.hash ==> sizes[j] == 0
    ensures s0.stopped ==> s == s0 && forall i :: 0 <= i < |jobs| ==> sizes[i] == 0
    ensures s.stopped && !s0.stopped ==> s.fetcherStopped
    ensures forall i, j :: 0 <= i < j < |jobs| && LowDiskAt(s0.hashes, jobs, sizes, initialFree, i) ==> sizes[j] == 0
  {
    sizes, history, s := [], [], s0;
    while |sizes| < |jobs|
      invariant Books(s0, jobs, initialFree, sizes, history, s)
      decreases |jobs| - |sizes|
    {
      sizes, history, s := Step(s0, jobs, initialFree, sizes, history, s);
    }
    assert jobs[..|sizes|] == jobs;
  }
}

=== FILE: duplicates.dfy ===
/**
 * `FindDuplicates` inside `CheckForDuplicateIds` (Main.py): the configured
 * creator ids of one platform are walked in order and every id whose
 * lower-cased form was already seen is reported, in input order.
 */
module Duplicates {

  /** `str.lower` on one character, for the ASCII letters. */
  function LowerChar(c: char): char {
    if 'A' <= c <= 'Z' then (c as int - 'A' as int + 'a' as int) as char else c
  }

  /** `str.lower`, character by character. */
  function Lower(s: string): (r: string)
    ensures |r| == |s|
    ensures forall i :: 0 <= i < |s| ==> r[i] == LowerChar(s[i])
  {
    if |s| == 0 then [] else [LowerChar(s[0])] + Lower(s[1..])
  }

  /** The normalised forms of all the ids: the keys `Seen` holds once they are walked. */
  function LowerSet(items: seq<string>): set<string> {
    set i | 0 <= i < |items| :: Lower(items[i])
  }

  /** Item `i` repeats, up to case, an id that comes before it. */
  predicate RepeatAt(items: seq<string>, i: int)
    requires 0 <= i < |items|
  {
    exists j :: 0 <= j < i && Lower(items[j]) == Lower(items[i])
  }

  /** Reference definition: the ids, in order, whose normalised form occurred earlier. */
  function Repeats(items: seq<string>): seq<string>
    decreases |items|
  {
    if |items| == 0 then []
    else
      var n := |items| - 1;
      Repeats(items[..n]) + (if Lower(items[n]) in LowerSet(items[..n]) then [items[n]] else [])
  }

  /** Walking one more id adds its normalised form to what has been seen. */
  lemma LowerSetStep(items: seq<string>, i: nat)
    requires i < |items|
    ensures LowerSet(items[..i + 1]) == LowerSet(items[..i]) + {Lower(items[i])}
  {
    var before := items[..i];
    var after := items[..i + 1];
    forall x | x in LowerSet(after)
      ensures x in LowerSet(before) + {Lower(items[i])}
    {
      var k :| 0 <= k < |after| && Lower(after[k]) == x;
      if k < i {
        assert before[k] == after[k];
      }
    }
    forall x | x in LowerSet(before)
      ensures x in LowerSet(after)
    {
      var k :| 0 <= k < |before| && Lower(before[k]) == x;
      assert after[k] == before[k];
    }
    assert after[i] == items[i];
  }

  /** `Repeats` over one more id. */
  lemma RepeatsStep(items: seq<string>, i: nat)
    requires i < |items|
    ensures Repeats(items[..i + 1])
            == Repeats(items[..i]) + (if Lower(items[i]) in LowerSet(items[..i]) then [items[i]] else [])
  {
    assert items[..i + 1][..i] == items[..i];
  }

  /**
   * `FindDuplicates`: the ids whose normalised form was already seen, in the
   * order they occur; `Seen` ends up holding every normalised id.
   */
  method FindDuplicates(items: seq<string>) returns (dups: seq<string>, seen: set<string>)
    ensures dups == Repeats(items)
    ensures seen == LowerSet(items)
  {
    dups, seen := [], {};
    var i := 0;
    while i < |items|
      invariant 0 <= i <= |items|
      invariant seen == LowerSet(items[..i])
      invariant dups == Repeats(items[..i])
    {
      var normalized := Lower(items[i]);
      RepeatsStep(items, i);
      LowerSetStep(items, i);
      if normalized in seen {
        dups := dups + [items[i]];
      } else {
        seen := seen + {normalized};
      }
      i := i + 1;
    }
    assert items[..i] == items;
  }

  /** An id's normalised form was seen before it exactly when an earlier id has the same normalised form. */
  lemma SeenIffRepeat(items: seq<string>, i: nat)
    requires i < |items|
    ensures Lower(items[i]) in LowerSet(items[..i]) <==> RepeatAt(items, i)
  {
    if Lower(items[i]) in LowerSet(items[..i]) {
      var j :| 0 <= j < i && Lower(items[..i][j]) == Lower(items[i]);
      assert items[..i][j] == items[j];
    }
    if RepeatAt(items, i) {
      var j :| 0 <= j < i && Lower(items[j]) == Lower(items[i]);
      assert items[..i][j] == items[j];
    }
  }

  /** Every reported id is one of the ids, and repeats an earlier one up to case; and every such repeat is reported. */
  lemma {:induction false} RepeatsAreExactlyTheRepeats(items: seq<string>, x: string)
    ensures x in Repeats(items) <==> exists i :: 0 <= i < |items| && items[i] == x && RepeatAt(items, i)
    decreases |items|
  {
    if |items| > 0 {
      var n := |items| - 1;
      var init := items[..n];
      RepeatsAreExactlyTheRepeats(init, x);
      SeenIffRepeat(items, n);
      assert forall i :: 0 <= i < n ==> (RepeatAt(init, i) <==> RepeatAt(items, i)) by {
        forall i | 0 <= i < n
          ensures RepeatAt(init, i) <==> RepeatAt(items, i)
        {
          assert forall j :: 0 <= j <= i ==> init[j] == items[j];
        }
      }
      if x in Repeats(items) && x !in Repeats(init) {
        assert items[n] == x && RepeatAt(items, n);
      }
      if exists i :: 0 <= i < |items| && items[i] == x && RepeatAt(items, i) {
        var i :| 0 <= i < |items| && items[i] == x && RepeatAt(items, i);
        if i < n {
          assert init[i] == x && RepeatAt(init, i);
        }
      }
    }
  }

  /** Each id is either reported or adds a new normalised form: the counts add up to the number of ids. */
  lemma {:induction false} RepeatsCount(items: seq<string>)
    ensures |Repeats(items)| + |LowerSet(items)| == |items|
    decreases |items|
  {
    if |items| > 0 {
      var n := |items| - 1;
      var init := items[..n];
      RepeatsCount(init);
      LowerSetStep(items, n);
      assert items[..n + 1] == items;
      if Lower(items[n]) in LowerSet(init) {
        assert LowerSet(init) + {Lower(items[n])} == LowerSet(init);
      } else {
        assert |LowerSet(init) + {Lower(items[n])}| == |LowerSet(init)| + 1;
      }
    }
  }

  /** Nothing is reported exactly when no two ids are equal up to case. */
  lemma NoRepeatsIffDistinct(items: seq<string>)
    ensures Repeats(items) == [] <==>
              forall i, j :: 0 <= j < i < |items| ==> Lower(items[j]) != Lower(items[i])
  {
    if Repeats(items) == [] {
      forall i, j | 0 <= j < i < |items|
        ensures Lower(items[j]) != Lower(items[i])
      {
        if Lower(items[j]) == Lower(items[i]) {
          assert RepeatAt(items, i);
          RepeatsAreExactlyTheRepeats(items, items[i]);
        }
      }
    }
    if Repeats(items) != [] {
      var x := Repeats(items)[0];
      RepeatsAreExactlyTheRepeats(items, x);
    }
  }

  /**
   * An id whose normalised form occurs nowhere else is never reported; in
   * particular the first occurrence of a value is kept whenever it is the only one.
   */
  lemma UniqueIsNotReported(items: seq<string>, i: nat)
    requires i < |items|
    requires forall j :: 0 <= j < |items| && j != i ==> Lower(items[j]) != Lower(items[i])
    ensures items[i] !in Repeats(items)
  {
    RepeatsAreExactlyTheRepeats(items, items[i]);
  }
}

=== FILE: fingerprints.dfy ===
/**
 * Fingerprints: how a file's deduplication key is derived from its URL or path,
 * how the remote listing is turned into a set of known keys, and how a key is
 * matched against that set.
 */
module Fingerprints {
  import opened Wrappers
  import opened Paths

  /** On-disk names and listed keys keep only this many characters of a hash. */
  const FingerprintLength: nat := 30

  /**
   * `Fetcher.ExtractHash` (Main.py): `None` for a missing or empty URL, otherwise
   * the last `/`-segment with its final `.suffix` removed.
   */
  function ExtractHash(url: Option<string>): (r: Option<string>)
    ensures r.Some? <==> url.Some? && url.value != ""
    ensures r.Some? ==> '/' !in r.value
  {
    if url.None? || url.value == "" then None
    else
      var name := LastSegment(url.value);
      var dot := RFind(name, '.');
      if dot < 0 then Some(name)
      else
        Some(name[..dot])
  }

  /**
   * The hash is a prefix of the URL's last segment: all of it when the segment
   * has no dot, otherwise everything before its last dot.
   */
  lemma ExtractHashShape(url: string)
    requires url != ""
    ensures var h := ExtractHash(Some(url)).value;
            var name := LastSegment(url);
            h <= name
            && (RFind(name, '.') < 0 ==> h == name)
            && (0 <= RFind(name, '.') ==> |h| < |name| && name[|h|] == '.' && '.' !in name[|h| + 1..])
  {
  }

  /** A file name `base.ext`, with no dot in `ext`, has `base` as hash. */
  lemma HashBeforeLastDot(url: string, base: string, ext: string)
    requires url != "" && LastSegment(url) == (base + ".") + ext && '.' !in ext
    ensures ExtractHash(Some(url)) == Some(base)
  {
    RFindAfter(base + ".", ext, '.');
    assert ((base + ".") + ext)[..|base|] == base;
  }

  /**
   * The extension Main.py appends to a recorded hash (`os.path.splitext(url)[1]`)
   * puts back exactly the part `ExtractHash` removed, so the recorded file keeps
   * the URL's file name, whenever the hash is not made of dots only.
   */
  lemma RecordedNameKeepsUrlFileName(url: string)
    requires url != ""
    requires HasNonDot(ExtractHash(Some(url)).value)
    ensures ExtractHash(Some(url)).value + SplitExt(url) == LastSegment(url)
  {
    if 0 <= RFind(LastSegment(url), '.') {
      DottedNameKeepsUrlFileName(url);
    } else {
      UndottedNameKeepsUrlFileName(url);
    }
  }

  /** `RecordedNameKeepsUrlFileName` when the file name has a dot. */
  lemma DottedNameKeepsUrlFileName(url: string)
    requires url != "" && 0 <= RFind(LastSegment(url), '.')
    requires HasNonDot(ExtractHash(Some(url)).value)
    ensures ExtractHash(Some(url)).value + SplitExt(url) == LastSegment(url)
  {
    var sep, d := DottedNameParts(url);
    assert ExtractHash(Some(url)).value == url[sep + 1..][..d];
    NameSplitsAtDot(url, sep, d);
  }

  /** Where the last slash `sep` and the file name's last dot `d` of a dotted URL lie. */
  lemma DottedNameParts(url: string) returns (sep: int, d: nat)
    requires url != "" && 0 <= RFind(LastSegment(url), '.')
    ensures sep == RFind(url, '/') && d == RFind(LastSegment(url), '.')
    ensures -1 <= sep && d < |url| - sep - 1
    ensures LastSegment(url) == url[sep + 1..] && url[sep + 1 + d] == '.'
    ensures SplitExt(url) == ExtensionAt(url, sep, sep + 1 + d)
  {
    var name := LastSegment(url);
    sep := RFind(url, '/');
    d := RFind(name, '.');
    assert name == url[sep + 1..];
    RFindInSuffix(url, sep + 1, '.');
    var dot := RFind(url, '.');
    assert dot == sep + 1 + d;
    assert url[sep + 1 + d] == name[d];
    assert SplitExt(url) == ExtensionAt(url, sep, dot);
  }

  /** `RecordedNameKeepsUrlFileName` when the file name has no dot: there is no extension. */
  lemma UndottedNameKeepsUrlFileName(url: string)
    requires url != "" && RFind(LastSegment(url), '.') < 0
    ensures ExtractHash(Some(url)).value + SplitExt(url) == LastSegment(url)
  {
    var sep := RFind(url, '/');
    assert LastSegment(url) == url[sep + 1..];
    RFindInSuffix(url, sep + 1, '.');
    assert SplitExt(url) == "";
  }

  /** With the file name starting after `sep` and its last dot at `d`, the extension is exactly the part from that dot. */
  lemma NameSplitsAtDot(url: string, sep: int, d: int)
    requires -1 <= sep < |url| && 0 <= d < |url| - sep - 1
    requires url[sep + 1 + d] == '.'
    requires HasNonDot(url[sep + 1..][..d])
    ensures url[sep + 1..][..d] + ExtensionAt(url, sep, sep + 1 + d) == url[sep + 1..]
  {
    var name := url[sep + 1..];
    var dot := sep + 1 + d;
    assert url[sep + 1..dot] == name[..d];
    assert url[dot..] == name[d..];
    assert name[..d] + name[d..] == name;
  }

  /** Where the last `c` of a string lies, read off the last `c` of one of its suffixes. */
  lemma RFindInSuffix(s: string, k: nat, c: char)
    requires k <= |s|
    ensures 0 <= RFind(s[k..], c) ==> RFind(s, c) == k + RFind(s[k..], c)
    ensures RFind(s[k..], c) < 0 ==> RFind(s, c) < k
  {
    var d := RFind(s[k..], c);
    var i := RFind(s, c);
    if 0 <= d {
      assert s[k + d] == s[k..][d];
    }
  }

  /** Python's `h[:30]`. */
  function Truncate(h: string): (r: string)
    ensures r <= h
    ensures |r| == if |h| < FingerprintLength then |h| else FingerprintLength
  {
    if |h| <= FingerprintLength then h else h[..FingerprintLength]
  }

  /** The name a downloaded file is written under: `Hash[:30] + Extension` (Fetcher.py). */
  function StoredName(hash: string, extension: string): string {
    Truncate(hash) + extension
  }

  /**
   * The keys one remote listing contributes: the first 30 characters of every
   * file stem that has at least 30 characters.
   */
  function ListingHashes(files: seq<string>): set<string> {
    set i | 0 <= i < |files| && |Stem(files[i])| >= FingerprintLength :: Stem(files[i])[..FingerprintLength]
  }

  /** What one listed file adds: its stem cut to 30 characters, if the stem is that long. */
  function Contribution(file: string): (r: set<string>)
    ensures forall h :: h in r ==> |h| == FingerprintLength
    ensures r == {} <==> |Stem(file)| < FingerprintLength
  {
    var stem := Stem(file);
    if |stem| >= FingerprintLength then {stem[..FingerprintLength]} else {}
  }

  /**
   * `ProcessCreator` inside `LookupHashes` (Fetcher.py): walks one creator's
   * listing and adds the truncated stems to the hashes gathered so far.
   */
  method ProcessCreator(processed: set<string>, files: seq<string>) returns (r: set<string>)
    ensures r == processed + ListingHashes(files)
    ensures forall h :: h in r - processed ==> |h| == FingerprintLength
  {
    r := processed;
    var i := 0;
    while i < |files|
      invariant 0 <= i <= |files|
      invariant r == processed + ListingHashes(files[..i])
    {
      r := r + Contribution(files[i]);
      ListingPrefixStep(files, i);
      i := i + 1;
    }
    assert r == processed + ListingHashes(files) by {
      assert files[..i] == files;
    }
    ListedKeysHaveFixedLength(files);
  }

  /** What one more file adds to the keys of a listing. */
  lemma ListingStep(files: seq<string>, f: string)
    ensures ListingHashes(files + [f]) == ListingHashes(files) + Contribution(f)
  {
    ListingStepAddsAtMost(files, f);
    ListingStepKeeps(files, f);
  }

  /** One more file adds no key but its own contribution. */
  lemma ListingStepAddsAtMost(files: seq<string>, f: string)
    ensures ListingHashes(files + [f]) <= ListingHashes(files) + Contribution(f)
  {
    forall h | h in ListingHashes(files + [f])
      ensures h in ListingHashes(files) + Contribution(f)
    {
      ExtendedKeyOrigin(files, f, h);
    }
  }

  /** A key of the extended listing comes from the old listing or from the new file. */
  lemma ExtendedKeyOrigin(files: seq<string>, f: string, h: string)
    requires h in ListingHashes(files + [f])
    ensures h in ListingHashes(files) || h in Contribution(f)
  {
    var extended := files + [f];
    var k :| 0 <= k < |extended| && |Stem(extended[k])| >= FingerprintLength && h == Stem(extended[k])[..FingerprintLength];
    if k < |files| {
      assert extended[k] == files[k];
      ListedKey(files, k);
    } else {
      assert extended[k] == f;
    }
  }

  /** One more file keeps every key and adds its own contribution. */
  lemma ListingStepKeeps(files: seq<string>, f: string)
    ensures ListingHashes(files) + Contribution(f) <= ListingHashes(files + [f])
  {
    var extended := files + [f];
    forall h | h in ListingHashes(files) ensures h in ListingHashes(extended) {
      var k :| 0 <= k < |files| && |Stem(files[k])| >= FingerprintLength && h == Stem(files[k])[..FingerprintLength];
      assert extended[k] == files[k];
      ListedKey(extended, k);
    }
    if |Stem(f)| >= FingerprintLength {
      assert extended[|files|] == f;
      ListedKey(extended, |files|);
    }
  }

  /** `ListingStep` for the prefixes a loop over the listing walks through. */
  lemma ListingPrefixStep(files: seq<string>, i: nat)
    requires i < |files|
    ensures ListingHashes(files[..i + 1]) == ListingHashes(files[..i]) + Contribution(files[i])
  {
    assert files[..i + 1] == files[..i] + [files[i]];
    ListingStep(files[..i], files[i]);
  }

  /** The file at index `k` contributes its truncated stem when the stem is long enough. */
  lemma ListedKey(files: seq<string>, k: nat)
    requires k < |files| && |Stem(files[k])| >= FingerprintLength
    ensures Stem(files[k])[..FingerprintLength] in ListingHashes(files)
  {
  }

  /** Every key a listing contributes is exactly 30 characters long. */
  lemma ListedKeysHaveFixedLength(files: seq<string>)
    ensures forall h :: h in ListingHashes(files) ==> |h| == FingerprintLength
  {
  }

  /** A file whose stem is shorter than 30 characters contributes nothing. */
  lemma ShortStemContributesNothing(files: seq<string>, f: string)
    requires |Stem(f)| < FingerprintLength
    ensures ListingHashes(files + [f]) == ListingHashes(files)
  {
    ListingStep(files, f);
  }

  /**
   * `LookupHashes` (Fetcher.py): the union of every creator listing that could
   * be read (`None` marks a listing that raised), and nothing else: the current
   * set is replaced. With no creator to look up, the current set is kept instead.
   */
  function LookupHashes(current: set<string>, listings: seq<Option<seq<string>>>): (r: set<string>)
    ensures |listings| == 0 ==> r == current
    ensures |listings| > 0 ==> forall h :: h in r ==> |h| == FingerprintLength
    ensures forall i, h :: 0 <= i < |listings| && listings[i].Some? && h in ListingHashes(listings[i].value) ==> h in r
    ensures |listings| > 0 ==>
              forall h :: h in r ==> exists i :: 0 <= i < |listings| && listings[i].Some? && h in ListingHashes(listings[i].value)
  {
    if |listings| == 0 then current else Gather(listings)
  }

  /** The keys of all readable listings together. */
  function Gather(listings: seq<Option<seq<string>>>): (r: set<string>)
    ensures forall h :: h in r ==> |h| == FingerprintLength
    ensures forall i, h :: 0 <= i < |listings| && listings[i].Some? && h in ListingHashes(listings[i].value) ==> h in r
    ensures forall h :: h in r ==> exists i :: 0 <= i < |listings| && listings[i].Some? && h in ListingHashes(listings[i].value)
  {
    if |listings| == 0 then {}
    else
      var last := listings[|listings| - 1];
      var rest := Gather(listings[..|listings| - 1]);
      assert forall i :: 0 <= i < |listings| - 1 ==> listings[..|listings| - 1][i] == listings[i];
      rest + (if last.Some? then ListingHashes(last.value) else {})
  }

  /**
   * The producer's test (Fetcher.py): a stem is known when some known hash is a
   * prefix of it, so a store of truncated keys still matches full hashes.
   */
  predicate IsKnown(known: set<string>, stem: string) {
    exists h :: h in known && h <= stem
  }

  /** Adding keys never makes a known stem unknown. */
  lemma KnownIsMonotonic(known: set<string>, more: set<string>, stem: string)
    requires IsKnown(known, stem)
    ensures IsKnown(known + more, stem)
  {
    var h :| h in known && h <= stem;
    assert h in known + more;
  }

  /**
   * A file saved under `Hash[:30] + Extension` has the 30-character prefix of
   * its hash as stem, provided the hash is at least 30 characters long and the
   * extension is either empty (then the prefix must hold no dot) or a single suffix.
   */
  lemma StoredNameStem(hash: string, extension: string)
    requires |hash| >= FingerprintLength && '/' !in hash
    requires extension == "" || (|extension| >= 2 && extension[0] == '.' && '.' !in extension[1..])
    requires '/' !in extension
    requires extension != "" || '.' !in hash[..FingerprintLength]
    ensures Stem(StoredName(hash, extension)) == hash[..FingerprintLength]
  {
    var h := hash[..FingerprintLength];
    assert StoredName(hash, extension) == h + extension;
    assert '/' !in h;
    NotInConcat(h, extension, '/');
    NameOfPlainFile(h + extension);
    if extension == "" {
      assert h + extension == h;
      RFindAbsent(h, '.');
    } else {
      StemBeforeSuffix(h, extension);
    }
  }

  /** A name made of `h` and a single suffix has its last dot where the suffix starts. */
  lemma StemBeforeSuffix(h: string, extension: string)
    requires |h| > 0 && |extension| >= 2 && extension[0] == '.' && '.' !in extension[1..]
    ensures RFind(h + extension, '.') == |h|
    ensures StemAt(h + extension, |h|) == h
  {
    var rest := extension[1..];
    assert extension == "." + rest;
    ConcatAssociates(h, ".", rest);
    RFindAfter(h + ".", rest, '.');
    assert (h + extension)[..|h|] == h;
  }

  /**
   * The dedup round trip: a remote file whose stem is at least 30 characters
   * long is downloaded under `Stem[:30] + Suffix`; once that name shows up in a
   * remote listing, the producer recognises the original stem as known and does
   * not enqueue it again.
   */
  lemma {:induction false} DedupRoundTrip(remote: string, listing: seq<string>)
    requires |Stem(remote)| >= FingerprintLength
    requires Suffix(remote) != "" || '.' !in Stem(remote)[..FingerprintLength]
    requires StoredName(Stem(remote), Suffix(remote)) in listing
    ensures IsKnown(ListingHashes(listing), Stem(remote))
  {
    var stem := Stem(remote);
    var name := StoredName(stem, Suffix(remote));
    StoredNameStem(stem, Suffix(remote));
    var k :| 0 <= k < |listing| && listing[k] == name;
    ListedKey(listing, k);
  }
}

=== FILE: hash_cache.dfy ===
/**
 * The hash cache kept in `cached_hashes.json`: platform -> creator -> hashes.
 * `DownloadManager.SaveNewHashes` (Main.py) merges the hashes of this run into
 * it. The JSON lists are deduplicated on every merge (`list(set(...))`), so
 * each creator's list is modelled as a set.
 */
module HashCache {

  /** Platform -> creator -> hashes. */
  type Creators = map<string, set<string>>
  type Cache = map<string, Creators>

  /** A creator's hashes, or none when the creator has no entry. */
  function Hashes(m: Creators, c: string): set<string> {
    if c in m then m[c] else {}
  }

  /** A platform's creators, or none when the platform has no entry. */
  function Platform(m: Cache, p: string): Creators {
    if p in m then m[p] else map[]
  }

  /** Reference definition for one platform: every creator of either side, with the union of its hashes. */
  function MergeCreators(prior: Creators, added: Creators): (r: Creators)
    ensures r.Keys == prior.Keys + added.Keys
  {
    map c | c in prior.Keys + added.Keys :: Hashes(prior, c) + Hashes(added, c)
  }

  /** Reference definition for the whole cache: every platform of either side, merged creator by creator. */
  function Merge(prior: Cache, added: Cache): (r: Cache)
    ensures r.Keys == prior.Keys + added.Keys
  {
    map p | p in prior.Keys + added.Keys :: MergeCreators(Platform(prior, p), Platform(added, p))
  }

  /**
   * `SaveNewHashes`: nothing happens when there are no added hashes; otherwise
   * each platform and creator of the added hashes gets an entry (created empty
   * when missing) holding the union of the cached and the added hashes.
   */
  method SaveNewHashes(cached: Cache, added: Cache) returns (merged: Cache)
    ensures merged == Merge(cached, added)
  {
    merged := cached;
    if added == map[] {
      EmptyMergeIsNoOp(cached);
      return;
    }
    var todo := added.Keys;
    MergeNothing(cached, added);
    while todo != {}
      invariant todo <= added.Keys
      invariant merged == Merge(cached, added - todo)
      decreases todo
    {
      var p :| p in todo;
      assert Platform(merged, p) == Platform(cached, p);
      var inner := MergePlatform(Platform(merged, p), added[p]);
      MergeStep(cached, added, todo, p);
      merged := merged[p := inner];
      todo := todo - {p};
    }
    assert added - todo == added;
  }

  /**
   * The inner loop of `SaveNewHashes` for one platform: each creator of the
   * added hashes gets an entry (created empty when missing) holding the union.
   */
  method MergePlatform(base: Creators, added: Creators) returns (inner: Creators)
    ensures inner == MergeCreators(base, added)
  {
    inner := base;
    var creators := added.Keys;
    MergeCreatorsNothing(base, added);
    while creators != {}
      invariant creators <= added.Keys
      invariant inner == MergeCreators(base, added - creators)
      decreases creators
    {
      var c :| c in creators;
      inner := inner[c := Hashes(inner, c) + added[c]];
      MergeCreatorsStep(base, added, creators, c);
      creators := creators - {c};
    }
    assert added - creators == added;
  }

  /** Starting point of the inner loop: no creator merged yet. */
  lemma MergeCreatorsNothing(base: Creators, added: Creators)
    ensures base == MergeCreators(base, added - added.Keys)
  {
    assert added - added.Keys == map[];
    MergeCreatorsWithNothing(base);
  }

  /** Starting point of the outer loop: no platform merged yet. */
  lemma MergeNothing(cached: Cache, added: Cache)
    ensures cached == Merge(cached, added - added.Keys)
  {
    assert added - added.Keys == map[];
    EmptyMergeIsNoOp(cached);
  }

  /** Merging one more creator `c` of `added` adds `added[c]` to its entry. */
  lemma MergeCreatorsStep(base: Creators, added: Creators, pending: set<string>, c: string)
    requires c in pending && pending <= added.Keys
    ensures var before := MergeCreators(base, added - pending);
            MergeCreators(base, added - (pending - {c})) == before[c := Hashes(before, c) + added[c]]
  {
    var before := MergeCreators(base, added - pending);
    var after := MergeCreators(base, added - (pending - {c}));
    var expected := before[c := Hashes(before, c) + added[c]];
    assert after.Keys == expected.Keys;
    forall k | k in after
      ensures after[k] == expected[k]
    {
      MergeCreatorsStepAt(base, added, pending, c, k);
    }
  }

  /** `MergeCreatorsStep` at one creator `k`. */
  lemma MergeCreatorsStepAt(base: Creators, added: Creators, pending: set<string>, c: string, k: string)
    requires c in pending && pending <= added.Keys
    requires k in base || k in added - (pending - {c})
    ensures var before := MergeCreators(base, added - pending);
            MergeCreators(base, added - (pending - {c}))[k] == before[c := Hashes(before, c) + added[c]][k]
  {
    if k == c {
      assert Hashes(added - pending, c) == {};
      assert Hashes(added - (pending - {c}), c) == added[c];
    } else {
      assert Hashes(added - (pending - {c}), k) == Hashes(added - pending, k);
    }
  }

  /** Merging one more platform `p` of `added` replaces its entry by the merged creators. */
  lemma MergeStep(cached: Cache, added: Cache, pending: set<string>, p: string)
    requires p in pending && pending <= added.Keys
    ensures Merge(cached, added - (pending - {p}))
              == Merge(cached, added - pending)[p := MergeCreators(Platform(cached, p), added[p])]
  {
    var after := Merge(cached, added - (pending - {p}));
    var expected := Merge(cached, added - pending)[p := MergeCreators(Platform(cached, p), added[p])];
    assert after.Keys == expected.Keys;
    forall k | k in after
      ensures after[k] == expected[k]
    {
      MergeStepAt(cached, added, pending, p, k);
    }
  }

  /** `MergeStep` at one platform `k`. */
  lemma MergeStepAt(cached: Cache, added: Cache, pending: set<string>, p: string, k: string)
    requires p in pending && pending <= added.Keys
    requires k in cached || k in added - (pending - {p})
    ensures Merge(cached, added - (pending - {p}))[k]
              == Merge(cached, added - pending)[p := MergeCreators(Platform(cached, p), added[p])][k]
  {
    if k != p {
      assert Platform(added - (pending - {p}), k) == Platform(added - pending, k);
    } else {
      assert Platform(added - (pending - {p}), p) == added[p];
    }
  }

  /** Merging a platform with no added creators leaves it as it is. */
  lemma MergeCreatorsWithNothing(m: Creators)
    ensures MergeCreators(m, map[]) == m
  {
    var r := MergeCreators(m, map[]);
    assert r.Keys == m.Keys;
    forall c | c in m
      ensures r[c] == m[c]
    {
    }
  }

  /** Merging no added hashes leaves the cache as it is. */
  lemma EmptyMergeIsNoOp(cached: Cache)
    ensures Merge(cached, map[]) == cached
  {
    var r := Merge(cached, map[]);
    assert r.Keys == cached.Keys;
    forall p | p in cached
      ensures r[p] == cached[p]
    {
      MergeCreatorsWithNothing(cached[p]);
    }
  }

  /** After a merge, every entry holds exactly the cached hashes and the added ones. */
  lemma MergedEntryIsUnion(cached: Cache, added: Cache, p: string, c: string)
    ensures Hashes(Platform(Merge(cached, added), p), c)
              == Hashes(Platform(cached, p), c) + Hashes(Platform(added, p), c)
  {
  }

  /** A platform without added hashes keeps its entry untouched. */
  lemma UntouchedPlatform(cached: Cache, added: Cache, p: string)
    requires p in cached && p !in added
    ensures Merge(cached, added)[p] == cached[p]
  {
    MergeCreatorsWithNothing(cached[p]);
  }

  /** A creator without added hashes keeps its entry untouched. */
  lemma UntouchedCreator(cached: Cache, added: Cache, p: string, c: string)
    requires p in cached && c in cached[p] && c !in Platform(added, p)
    ensures Merge(cached, added)[p][c] == cached[p][c]
  {
  }

  /** Merging the same added hashes a second time changes nothing. */
  lemma MergeIsIdempotent(cached: Cache, added: Cache)
    ensures Merge(Merge(cached, added), added) == Merge(cached, added)
  {
    var once := Merge(cached, added);
    var twice := Merge(once, added);
    assert twice.Keys == once.Keys;
    forall p | p in once
      ensures twice[p] == once[p]
    {
      MergeCreatorsIsIdempotent(Platform(cached, p), Platform(added, p));
    }
  }

  /** Merging one platform's added creators a second time changes nothing. */
  lemma MergeCreatorsIsIdempotent(prior: Creators, added: Creators)
    ensures MergeCreators(MergeCreators(prior, added), added) == MergeCreators(prior, added)
  {
    var once := MergeCreators(prior, added);
    var twice := MergeCreators(once, added);
    assert twice.Keys == once.Keys;
    forall c | c in once
      ensures twice[c] == once[c]
    {
      var h := Hashes(prior, c) + Hashes(added, c);
      assert Hashes(once, c) == h;
      assert twice[c] == h + Hashes(added, c);
    }
  }

  /** No cached hash is ever lost by a merge. */
  lemma MergeKeepsCached(cached: Cache, added: Cache, p: string, c: string)
    requires p in cached && c in cached[p]
    ensures p in Merge(cached, added) && c in Merge(cached, added)[p]
    ensures cached[p][c] <= Merge(cached, added)[p][c]
  {
  }
}

=== FILE: kemono.dfy ===
/**
 * The coomer/kemono branch of `Fetcher.Scrape` (Main.py): one request for a
 * creator's post list; for each post, while both limits are positive, its
 * attachments and then its main file are turned into URLs on the host and
 * recorded when new. The branch is modelled twice: as written, and with the
 * two defects listed in the README corrected.
 */
module Kemono {
  import opened Wrappers
  import opened Paths
  import opened Fingerprints
  import opened Records

  /** `coomer` serves OnlyFans and Fansly; every other platform is on `kemono`. */
  function Hoster(platform: string): (host: string)
    ensures host == "coomer" <==> platform == "onlyfans" || platform == "fansly"
    ensures host == "coomer" || host == "kemono"
    ensures |host| > 0 && '/' !in host && '.' !in host
  {
    if platform == "onlyfans" || platform == "fansly" then "coomer" else "kemono"
  }

  /**
   * A post of the list. An attachment is its `path` (`None` when the key is
   * missing). The main file is `None` for a missing or empty `file` object and
   * `Some(path)` otherwise.
   */
  datatype KPost = KPost(attachments: seq<Option<string>>, file: Option<Option<string>>)

  /** What the single request brings back: a post list, or anything else (a failure, a non-list body). */
  datatype Response = Failed | PostList(posts: seq<KPost>)

  /** Python's rendering of a path inside an f-string: `None` prints as the text `None`. */
  function Rendered(path: Option<string>): string {
    match path
    case Some(p) => p
    case None => "None"
  }

  /** `f'https://{Hoster}.su{path}'`. */
  function FileUrl(host: string, path: Option<string>): (url: string)
    ensures url == "https://" + host + ".su" + Rendered(path)
  {
    "https://" + host + ".su" + Rendered(path)
  }

  /**
   * The attachment loop, over each attachment's outcome: it breaks as soon as
   * either limit is not positive, and records every attachment with an entry.
   */
  function AttachLoop(t: Taken, outcomes: seq<Option<Entry>>): (r: Taken)
    ensures |r.entries| - |t.entries| == t.global - r.global == t.creator - r.creator
    ensures t.entries <= r.entries
    ensures 0 <= t.global ==> 0 <= r.global
    ensures 0 <= t.creator ==> 0 <= r.creator
    ensures forall k :: |t.entries| <= k < |r.entries| ==> Some(r.entries[k]) in outcomes
    decreases |outcomes|
  {
    if |outcomes| == 0 || t.global <= 0 || t.creator <= 0 then t
    else
      var next := if outcomes[0].Some? then Taken(t.global - 1, t.creator - 1, t.entries + [outcomes[0].value]) else t;
      var r := AttachLoop(next, outcomes[1..]);
      assert forall k :: |next.entries| <= k < |r.entries| ==> Some(r.entries[k]) in outcomes;
      r
  }

  /**
   * Breaking out of the loop once a limit is exhausted records the same files
   * as skipping every remaining post, as the paginated branches do.
   */
  lemma {:induction false} BreakMatchesSkip(t: Taken, outcomes: seq<Option<Entry>>)
    ensures var skip := TakePosts(t.global, t.creator, outcomes);
            AttachLoop(t, outcomes) == Taken(skip.global, skip.creator, t.entries + skip.entries)
    decreases |outcomes|
  {
    if |outcomes| > 0 && t.global > 0 && t.creator > 0 {
      var next := if outcomes[0].Some? then Taken(t.global - 1, t.creator - 1, t.entries + [outcomes[0].value]) else t;
      BreakMatchesSkip(next, outcomes[1..]);
      if outcomes[0].Some? {
        var rest := TakePosts(t.global - 1, t.creator - 1, outcomes[1..]);
        assert t.entries + [outcomes[0].value] + rest.entries == t.entries + ([outcomes[0].value] + rest.entries);
      }
    } else if |outcomes| > 0 {
      assert TakePosts(t.global, t.creator, outcomes).entries == [];
    }
  }

  // ---------------------------------------------------------------- as written

  /** The outcome of a path as written: a missing path is rendered into the URL as `None`. */
  function OutcomeAsWritten(cached: set<string>, dir: string, host: string, path: Option<string>): Option<Entry> {
    Outcome(cached, dir, Some(FileUrl(host, path)))
  }

  /** The outcomes of a post's attachments, as written. */
  function AttachmentsAsWritten(cached: set<string>, dir: string, host: string, paths: seq<Option<string>>): (r: seq<Option<Entry>>)
    ensures |r| == |paths|
  {
    seq(|paths|, k requires 0 <= k < |paths| => OutcomeAsWritten(cached, dir, host, paths[k]))
  }

  /** The main-file step as written: it records a new hash without looking at the limits. */
  function MainFileAsWritten(t: Taken, outcome: Option<Entry>): (r: Taken)
    ensures |r.entries| - |t.entries| == t.global - r.global == t.creator - r.creator <= 1
    ensures t.entries <= r.entries
    ensures t.global <= 0 && outcome.Some? ==> r.global < 0
  {
    if outcome.Some? then Taken(t.global - 1, t.creator - 1, t.entries + [outcome.value]) else t
  }

  /** The loop over posts as written: a post is handled only while both limits are positive. */
  function PostsAsWritten(t: Taken, cached: set<string>, dir: string, host: string, posts: seq<KPost>): (r: Taken)
    ensures |r.entries| - |t.entries| == t.global - r.global == t.creator - r.creator
    ensures t.entries <= r.entries
    ensures -1 <= t.global ==> -1 <= r.global
    ensures -1 <= t.creator ==> -1 <= r.creator
    decreases |posts|
  {
    if |posts| == 0 then t
    else if t.global > 0 && t.creator > 0 then
      var afterAttachments := AttachLoop(t, AttachmentsAsWritten(cached, dir, host, posts[0].attachments));
      var file := posts[0].file;
      var afterFile := if file.None? then afterAttachments
                       else MainFileAsWritten(afterAttachments, OutcomeAsWritten(cached, dir, host, file.value));
      PostsAsWritten(afterFile, cached, dir, host, posts[1..])
    else
      PostsAsWritten(t, cached, dir, host, posts[1..])
  }

  /**
   * The branch as written: the limits it returns and the files it recorded.
   * From non-negative limits, a limit can end at -1, never lower.
   */
  function ScrapeAsWritten(platform: string, global: int, creator: int, cached: set<string>, dir: string, response: Response): (r: Taken)
    ensures |r.entries| == global - r.global == creator - r.creator
    ensures 0 <= global ==> -1 <= r.global
    ensures 0 <= creator ==> -1 <= r.creator
    ensures response.Failed? ==> r == Taken(global, creator, [])
  {
    match response
    case Failed => Taken(global, creator, [])
    case PostList(posts) => PostsAsWritten(Taken(global, creator, []), cached, dir, Hoster(platform), posts)
  }

  /**
   * An attachment without a `path` becomes the URL `https://<host>.suNone`,
   * whose hash is the host name itself: the branch records a file named after
   * the host although the post named no file.
   */
  lemma MissingPathRecordsHostName(platform: string, dir: string, t: Taken, cached: set<string>)
    requires t.global > 0 && t.creator > 0 && Hoster(platform) !in cached
    ensures var host := Hoster(platform);
            var post := KPost([None], None);
            PostsAsWritten(t, cached, dir, host, [post])
              == Taken(t.global - 1, t.creator - 1,
                       t.entries + [Entry(host, "https://" + host + ".suNone", dir + "/" + host + ".suNone")])
  {
    var host := Hoster(platform);
    var post := KPost([None], None);
    var e := Entry(host, "https://" + host + ".suNone", dir + "/" + host + ".suNone");
    PathlessOutcome(cached, dir, host);
    var outs := AttachmentsAsWritten(cached, dir, host, [None]);
    OneAttachment(cached, dir, host, None);
    SingleAttachment(t, outs, e);
    OnePostAsWritten(t, cached, dir, host, post);
  }

  /** The entry a pathless attachment yields on a host that is not cached. */
  lemma PathlessOutcome(cached: set<string>, dir: string, host: string)
    requires |host| > 0 && '/' !in host && '.' !in host && host !in cached
    ensures OutcomeAsWritten(cached, dir, host, None)
              == Some(Entry(host, "https://" + host + ".suNone", dir + "/" + host + ".suNone"))
  {
    PathlessUrl(host);
  }

  /**
   * For a host name with neither `/` nor `.`, the pathless URL
   * `https://<host>.suNone` has the host as hash and `.suNone` as extension.
   */
  lemma PathlessUrl(host: string)
    requires |host| > 0 && '/' !in host && '.' !in host
    ensures FileUrl(host, None) == "https://" + host + ".suNone"
    ensures ExtractHash(Some(FileUrl(host, None))) == Some(host)
    ensures SplitExt(FileUrl(host, None)) == ".suNone"
  {
    PathlessHash(host);
    PathlessExtension(host);
  }

  lemma PathlessHash(host: string)
    requires |host| > 0 && '/' !in host && '.' !in host
    ensures ExtractHash(Some(FileUrl(host, None))) == Some(host)
  {
    PathlessUrlShape(host);
    SuNoneHasNoSeparator();
    HostUrlHash(FileUrl(host, None), host, "suNone");
  }

  lemma PathlessExtension(host: string)
    requires |host| > 0 && '/' !in host && '.' !in host
    ensures SplitExt(FileUrl(host, None)) == ".suNone"
  {
    SuNoneHasNoSeparator();
    PathlessUrlShape(host);
    HostUrlExtension(FileUrl(host, None), host, "suNone");
    assert "." + "suNone" == ".suNone";
  }

  /** The text after the host in a pathless URL holds neither a slash nor a dot. */
  lemma SuNoneHasNoSeparator()
    ensures '/' !in "suNone" && '.' !in "suNone"
  {
  }

  /** The pathless URL, regrouped as scheme, host, dot and the rest. */
  lemma PathlessUrlShape(host: string)
    ensures FileUrl(host, None) == "https://" + ((host + ".") + "suNone")
  {
  }

  /**
   * An attachment whose `path` is the empty string becomes the URL
   * `https://<host>.su`, whose hash is again the host name: the branch records
   * a file named after the host although the post named no file.
   */
  lemma EmptyPathRecordsHostName(platform: string, dir: string, t: Taken, cached: set<string>)
    requires t.global > 0 && t.creator > 0 && Hoster(platform) !in cached
    ensures var host := Hoster(platform);
            var post := KPost([Some("")], None);
            PostsAsWritten(t, cached, dir, host, [post])
              == Taken(t.global - 1, t.creator - 1,
                       t.entries + [Entry(host, "https://" + host + ".su", dir + "/" + host + ".su")])
  {
    var host := Hoster(platform);
    var post := KPost([Some("")], None);
    var e := Entry(host, "https://" + host + ".su", dir + "/" + host + ".su");
    EmptyPathUrl(host);
    var outs := AttachmentsAsWritten(cached, dir, host, [Some("")]);
    OneAttachment(cached, dir, host, Some(""));
    SingleAttachment(t, outs, e);
    OnePostAsWritten(t, cached, dir, host, post);
  }

  /**
   * For a host name with neither `/` nor `.`, the empty-path URL
   * `https://<host>.su` has the host as hash and `.su` as extension.
   */
  lemma EmptyPathUrl(host: string)
    requires |host| > 0 && '/' !in host && '.' !in host
    ensures FileUrl(host, Some("")) == "https://" + host + ".su"
    ensures ExtractHash(Some(FileUrl(host, Some("")))) == Some(host)
    ensures SplitExt(FileUrl(host, Some(""))) == ".su"
  {
    var url := FileUrl(host, Some(""));
    assert url == "https://" + ((host + ".") + "su");
    SuHasNoSeparator();
    HostUrlHash(url, host, "su");
    HostUrlExtension(url, host, "su");
    assert "." + "su" == ".su";
  }

  /** The text after the host in an empty-path URL holds neither a slash nor a dot. */
  lemma SuHasNoSeparator()
    ensures '/' !in "su" && '.' !in "su"
  {
  }

  /** A URL `https://<host>.<rest>` with no slash or dot in host or rest has the host as hash. */
  lemma HostUrlHash(url: string, host: string, rest: string)
    requires |host| > 0 && '/' !in host && '.' !in host && '/' !in rest && '.' !in rest
    requires url == "https://" + ((host + ".") + rest)
    ensures ExtractHash(Some(url)) == Some(host)
  {
    NotInConcat(host, ".", '/');
    NotInConcat(host + ".", rest, '/');
    LastSegmentAfter("https://", (host + ".") + rest);
    HashBeforeLastDot(url, host, rest);
  }

  /** A URL `https://<host>.<rest>` with no slash or dot in host or rest has `.<rest>` as extension. */
  lemma HostUrlExtension(url: string, host: string, rest: string)
    requires |host| > 0 && '/' !in host && '.' !in host && '/' !in rest && '.' !in rest
    requires url == "https://" + ((host + ".") + rest)
    ensures SplitExt(url) == "." + rest
  {
    NoDotHasNonDot(host);
    ExtensionOfFileName(url, "https://", host, rest);
  }

  /**
   * The main file is recorded after the attachments used up the limit: with a
   * global limit of 1, a post with one new attachment and a new main file
   * records two files and returns a global limit of -1.
   */
  lemma MainFileOverrunsLimit(platform: string, dir: string, creator: int, a: string, b: string)
    requires creator > 1
    requires |a| > 0 && '/' !in a && '.' !in a
    requires |b| > 0 && '/' !in b && '.' !in b
    ensures var host := Hoster(platform);
            var post := KPost([Some("/" + a + ".jpg")], Some(Some("/" + b + ".jpg")));
            var r := PostsAsWritten(Taken(1, creator, []), {}, dir, host, [post]);
            |r.entries| == 2 && r.global == -1
  {
    var host := Hoster(platform);
    var post := KPost([Some("/" + a + ".jpg")], Some(Some("/" + b + ".jpg")));
    var t0 := Taken(1, creator, []);
    var ea := NewAttachmentAsWritten(t0, dir, host, a);
    var eb := NewFile(dir, host, b);
    OnePostAsWritten(t0, {}, dir, host, post);
    assert MainFileAsWritten(Taken(0, creator - 1, [ea]), Some(eb)) == Taken(-1, creator - 2, [ea, eb]);
  }

  /** A post's single new attachment `/<name>.jpg`, as written, under positive limits: recorded, one from each limit. */
  lemma NewAttachmentAsWritten(t: Taken, dir: string, host: string, name: string) returns (e: Entry)
    requires t.global > 0 && t.creator > 0
    requires |name| > 0 && '/' !in name && '.' !in name
    ensures OutcomeAsWritten({}, dir, host, Some("/" + name + ".jpg")) == Some(e)
    ensures AttachLoop(t, AttachmentsAsWritten({}, dir, host, [Some("/" + name + ".jpg")]))
              == Taken(t.global - 1, t.creator - 1, t.entries + [e])
  {
    e := NewFile(dir, host, name);
    OneAttachment({}, dir, host, Some("/" + name + ".jpg"));
    SingleAttachment(t, AttachmentsAsWritten({}, dir, host, [Some("/" + name + ".jpg")]), e);
  }

  /** A single post under positive limits: its attachments, then its main file. */
  lemma OnePostAsWritten(t: Taken, cached: set<string>, dir: string, host: string, post: KPost)
    requires t.global > 0 && t.creator > 0
    ensures var afterAttachments := AttachLoop(t, AttachmentsAsWritten(cached, dir, host, post.attachments));
            PostsAsWritten(t, cached, dir, host, [post])
              == if post.file.None? then afterAttachments
                 else MainFileAsWritten(afterAttachments, OutcomeAsWritten(cached, dir, host, post.file.value))
  {
    assert [post][1..] == [];
  }

  /** A single post under positive limits in the corrected branch. */
  lemma OnePost(t: Taken, cached: set<string>, dir: string, host: string, post: KPost)
    requires t.global > 0 && t.creator > 0
    ensures var afterAttachments := AttachLoop(t, Attachments(cached, dir, host, post.attachments));
            Posts(t, cached, dir, host, [post])
              == if post.file.None? then afterAttachments
                 else MainFile(afterAttachments, CorrectedOutcome(cached, dir, host, post.file.value))
  {
    assert [post][1..] == [];
  }

  /** The outcomes of a single attachment. */
  lemma OneAttachment(cached: set<string>, dir: string, host: string, p: Option<string>)
    ensures AttachmentsAsWritten(cached, dir, host, [p]) == [OutcomeAsWritten(cached, dir, host, p)]
    ensures Attachments(cached, dir, host, [p]) == [CorrectedOutcome(cached, dir, host, p)]
  {
  }

  /** One attachment with an entry, under positive limits, is recorded and costs one from each. */
  lemma SingleAttachment(t: Taken, outcomes: seq<Option<Entry>>, e: Entry)
    requires outcomes == [Some(e)] && t.global > 0 && t.creator > 0
    ensures AttachLoop(t, outcomes) == Taken(t.global - 1, t.creator - 1, t.entries + [e])
  {
    assert outcomes[1..] == [];
  }

  /** `/<name>.jpg`, for a name with neither `/` nor `.`, is a new file when nothing is cached. */
  lemma NewFile(dir: string, host: string, name: string) returns (e: Entry)
    requires |name| > 0 && '/' !in name && '.' !in name
    ensures OutcomeAsWritten({}, dir, host, Some("/" + name + ".jpg")) == Some(e)
    ensures CorrectedOutcome({}, dir, host, Some("/" + name + ".jpg")) == Some(e)
  {
    FileHash(host, name);
    e := OutcomeAsWritten({}, dir, host, Some("/" + name + ".jpg")).value;
  }

  /** The hash of `https://<host>.su/<name>.jpg` is `name`. */
  lemma FileHash(host: string, name: string)
    requires |name| > 0 && '/' !in name && '.' !in name
    ensures ExtractHash(Some(FileUrl(host, Some("/" + name + ".jpg")))) == Some(name)
  {
    var url := FileUrl(host, Some("/" + name + ".jpg"));
    var file := (name + ".") + "jpg";
    assert url == ("https://" + host + ".su/") + file;
    JpgHasNoSeparator();
    NotInConcat(name, ".", '/');
    NotInConcat(name + ".", "jpg", '/');
    LastSegmentAfter("https://" + host + ".su/", file);
    HashBeforeLastDot(url, name, "jpg");
  }

  /** The extension `jpg` holds neither a slash nor a dot. */
  lemma JpgHasNoSeparator()
    ensures '/' !in "jpg" && '.' !in "jpg"
  {
  }

  // ----------------------------------------------------------------- corrected

  /** The paths a post names: each attachment's, then the main file's when the post has one. */
  function PostPaths(post: KPost): (r: seq<Option<string>>)
    ensures forall x :: x in r <==> x in post.attachments || post.file == Some(x)
  {
    post.attachments + (match post.file case Some(f) => [f] case None => [])
  }

  /** The paths all the posts of a list name, post after post. */
  function AllPaths(posts: seq<KPost>): (r: seq<Option<string>>)
    ensures forall i, x :: 0 <= i < |posts| && x in PostPaths(posts[i]) ==> x in r
    ensures forall x :: x in r ==> exists i :: 0 <= i < |posts| && x in PostPaths(posts[i])
    decreases |posts|
  {
    if |posts| == 0 then []
    else
      var rest := AllPaths(posts[1..]);
      assert forall i :: 1 <= i < |posts| ==> posts[1..][i - 1] == posts[i];
      PostPaths(posts[0]) + rest
  }

  /**
   * A path is present when the key is there and its value is not empty: the
   * truth test the fetcher applies to `path` before it builds a URL.
   */
  predicate HasPath(path: Option<string>) {
    path.Some? && path.value != ""
  }

  /** The URL of entry `e` is the host's URL for one of the paths present in `paths`. */
  ghost predicate NamedIn(host: string, e: Entry, paths: seq<Option<string>>) {
    exists p :: Some(p) in paths && p != "" && e.url == FileUrl(host, Some(p))
  }

  /** An attachment or main file without a path, or with an empty one, is skipped instead of rendered. */
  function CorrectedOutcome(cached: set<string>, dir: string, host: string, path: Option<string>): (r: Option<Entry>)
    ensures r.Some? ==> HasPath(path) && r.value.url == FileUrl(host, path) && NewEntry(cached, r.value)
    ensures HasPath(path) ==> r == OutcomeAsWritten(cached, dir, host, path)
  {
    match path
    case None => None
    case Some(p) => if p == "" then None else Outcome(cached, dir, Some(FileUrl(host, path)))
  }

  /** Every outcome is empty or a new entry whose URL is that of a path present in `paths`. */
  ghost predicate Sound(cached: set<string>, host: string, outcomes: seq<Option<Entry>>, paths: seq<Option<string>>) {
    forall e :: Some(e) in outcomes ==> NewEntry(cached, e) && NamedIn(host, e, paths)
  }

  /** The corrected outcomes of a post's attachments. */
  function Attachments(cached: set<string>, dir: string, host: string, paths: seq<Option<string>>): (r: seq<Option<Entry>>)
    ensures |r| == |paths|
    ensures Sound(cached, host, r, paths)
    ensures forall k :: 0 <= k < |paths| ==> r[k] == if HasPath(paths[k]) then OutcomeAsWritten(cached, dir, host, paths[k]) else None
  {
    var r := seq(|paths|, k requires 0 <= k < |paths| => CorrectedOutcome(cached, dir, host, paths[k]));
    CorrectedOutcomesSound(cached, dir, host, paths, r);
    r
  }

  /** Outcomes computed path by path with `CorrectedOutcome` are sound for those paths. */
  lemma CorrectedOutcomesSound(cached: set<string>, dir: string, host: string, paths: seq<Option<string>>, r: seq<Option<Entry>>)
    requires |r| == |paths|
    requires forall k :: 0 <= k < |r| ==> r[k] == CorrectedOutcome(cached, dir, host, paths[k])
    ensures Sound(cached, host, r, paths)
  {
    forall e | Some(e) in r
      ensures NewEntry(cached, e) && NamedIn(host, e, paths)
    {
      var k :| 0 <= k < |r| && r[k] == Some(e);
      assert paths[k] in paths && paths[k] == Some(paths[k].value);
    }
  }

  /** The corrected main-file step: like the attachments, it records only while both limits are positive. */
  function MainFile(t: Taken, outcome: Option<Entry>): (r: Taken)
    ensures |r.entries| - |t.entries| == t.global - r.global == t.creator - r.creator <= 1
    ensures t.entries <= r.entries
    ensures 0 <= t.global ==> 0 <= r.global
    ensures 0 <= t.creator ==> 0 <= r.creator
    ensures |t.entries| < |r.entries| ==> outcome.Some? && r.entries == t.entries + [outcome.value]
    ensures outcome.Some? && t.global > 0 && t.creator > 0 ==> r.entries == t.entries + [outcome.value]
  {
    if outcome.Some? && t.global > 0 && t.creator > 0 then
      Taken(t.global - 1, t.creator - 1, t.entries + [outcome.value])
    else t
  }

  /** The entries of `r` beyond those of `t` are all new and named by paths present in `paths`. */
  ghost predicate SoundSince(cached: set<string>, host: string, t: Taken, r: Taken, paths: seq<Option<string>>) {
    forall k :: |t.entries| <= k < |r.entries| ==> NewEntry(cached, r.entries[k]) && NamedIn(host, r.entries[k], paths)
  }

  /** Sound stretches of entries chain together. */
  lemma SoundSteps(cached: set<string>, host: string, t: Taken, a: Taken, r: Taken, paths: seq<Option<string>>)
    requires t.entries <= a.entries <= r.entries
    requires SoundSince(cached, host, t, a, paths) && SoundSince(cached, host, a, r, paths)
    ensures SoundSince(cached, host, t, r, paths)
  {
    forall k | |t.entries| <= k < |r.entries|
      ensures NewEntry(cached, r.entries[k]) && NamedIn(host, r.entries[k], paths)
    {
      if k < |a.entries| {
        assert r.entries[k] == a.entries[k];
      }
    }
  }

  /** Entries named by paths of `small` are named by paths of any `big` that holds them all. */
  lemma SoundSinceWiden(cached: set<string>, host: string, t: Taken, r: Taken, small: seq<Option<string>>, big: seq<Option<string>>)
    requires SoundSince(cached, host, t, r, small)
    requires forall x :: x in small ==> x in big
    ensures SoundSince(cached, host, t, r, big)
  {
    forall k | |t.entries| <= k < |r.entries|
      ensures NamedIn(host, r.entries[k], big)
    {
      assert NamedIn(host, r.entries[k], small);
      var p :| Some(p) in small && p != "" && r.entries[k].url == FileUrl(host, Some(p));
      assert Some(p) in big;
    }
  }

  /** The attachment loop over sound outcomes adds only sound entries. */
  lemma AttachLoopSound(cached: set<string>, host: string, t: Taken, outcomes: seq<Option<Entry>>, paths: seq<Option<string>>)
    requires Sound(cached, host, outcomes, paths)
    ensures SoundSince(cached, host, t, AttachLoop(t, outcomes), paths)
  {
  }

  /**
   * One post in the corrected branch, under positive limits: its attachments,
   * then its main file. Every entry it adds is new and named by a path the post holds.
   */
  function PostStep(t: Taken, cached: set<string>, dir: string, host: string, post: KPost): (r: Taken)
    ensures |r.entries| - |t.entries| == t.global - r.global == t.creator - r.creator
    ensures t.entries <= r.entries
    ensures 0 <= t.global ==> 0 <= r.global
    ensures 0 <= t.creator ==> 0 <= r.creator
    ensures SoundSince(cached, host, t, r, PostPaths(post))
  {
    var outcomes := Attachments(cached, dir, host, post.attachments);
    var afterAttachments := AttachLoop(t, outcomes);
    AttachLoopSound(cached, host, t, outcomes, post.attachments);
    SoundSinceWiden(cached, host, t, afterAttachments, post.attachments, PostPaths(post));
    if post.file.None? then afterAttachments
    else
      var r := MainFile(afterAttachments, CorrectedOutcome(cached, dir, host, post.file.value));
      MainFileSound(cached, dir, host, afterAttachments, post.file.value);
      SoundSinceWiden(cached, host, afterAttachments, r, [post.file.value], PostPaths(post));
      SoundSteps(cached, host, t, afterAttachments, r, PostPaths(post));
      r
  }

  /** The corrected main-file step adds only a new entry named by its own path. */
  lemma MainFileSound(cached: set<string>, dir: string, host: string, t: Taken, path: Option<string>)
    ensures SoundSince(cached, host, t, MainFile(t, CorrectedOutcome(cached, dir, host, path)), [path])
  {
    var outcome := CorrectedOutcome(cached, dir, host, path);
    var r := MainFile(t, outcome);
    if |t.entries| < |r.entries| {
      assert r.entries[|t.entries|] == outcome.value;
      assert path in [path];
    }
  }

  /** The corrected loop over posts: every entry it adds is new and named by a path some post holds. */
  function Posts(t: Taken, cached: set<string>, dir: string, host: string, posts: seq<KPost>): (r: Taken)
    ensures |r.entries| - |t.entries| == t.global - r.global == t.creator - r.creator
    ensures t.entries <= r.entries
    ensures 0 <= t.global ==> 0 <= r.global
    ensures 0 <= t.creator ==> 0 <= r.creator
    ensures SoundSince(cached, host, t, r, AllPaths(posts))
    decreases |posts|
  {
    if |posts| == 0 then t
    else if t.global > 0 && t.creator > 0 then
      var next := PostStep(t, cached, dir, host, posts[0]);
      var r := Posts(next, cached, dir, host, posts[1..]);
      SoundSinceWiden(cached, host, t, next, PostPaths(posts[0]), AllPaths(posts));
      SoundSinceWiden(cached, host, next, r, AllPaths(posts[1..]), AllPaths(posts));
      SoundSteps(cached, host, t, next, r, AllPaths(posts));
      r
    else
      var r := Posts(t, cached, dir, host, posts[1..]);
      SoundSinceWiden(cached, host, t, r, AllPaths(posts[1..]), AllPaths(posts));
      r
  }

  /**
   * The corrected branch: from non-negative limits, neither limit goes below
   * zero, so it records at most as many files as either limit allows; each
   * file is new and its URL is that of an attachment or main-file path present
   * in the post list. It records the files the branch as written finds for
   * those paths, in order, and stops short of them only when a limit is
   * exhausted.
   */
  function Scrape(platform: string, global: int, creator: int, cached: set<string>, dir: string, response: Response): (r: Taken)
    ensures |r.entries| == global - r.global == creator - r.creator
    ensures 0 <= global ==> 0 <= r.global && |r.entries| <= global
    ensures 0 <= creator ==> 0 <= r.creator && |r.entries| <= creator
    ensures forall k :: 0 <= k < |r.entries| ==> NewEntry(cached, r.entries[k])
    ensures response.PostList? ==>
              forall k :: 0 <= k < |r.entries| ==> NamedIn(Hoster(platform), r.entries[k], AllPaths(response.posts))
    ensures response.PostList? ==>
              var found := Present(AttachmentsAsWritten(cached, dir, Hoster(platform), WithPath(AllPaths(response.posts))));
              && |r.entries| <= |found|
              && r.entries == found[..|r.entries|]
              && (|r.entries| == |found| || r.global <= 0 || r.creator <= 0)
    ensures response.Failed? ==> r == Taken(global, creator, [])
  {
    match response
    case Failed => Taken(global, creator, [])
    case PostList(posts) =>
      var host := Hoster(platform);
      var outcomes := Attachments(cached, dir, host, AllPaths(posts));
      PostsFromScratch(global, creator, cached, dir, host, posts);
      TakePostsIsPrefix(global, creator, outcomes);
      CorrectedSkipsPathless(cached, dir, host, AllPaths(posts));
      Posts(Taken(global, creator, []), cached, dir, host, posts)
  }

  /** The paths of `paths` that are present, in order. */
  function WithPath(paths: seq<Option<string>>): (r: seq<Option<string>>)
    ensures forall x :: x in r <==> x in paths && HasPath(x)
    decreases |paths|
  {
    if |paths| == 0 then []
    else
      assert paths == [paths[0]] + paths[1..];
      (if HasPath(paths[0]) then [paths[0]] else []) + WithPath(paths[1..])
  }

  /** The corrected outcomes of two path lists in turn are the outcomes of both at once. */
  lemma AttachmentsConcat(cached: set<string>, dir: string, host: string, a: seq<Option<string>>, b: seq<Option<string>>)
    ensures Attachments(cached, dir, host, a + b) == Attachments(cached, dir, host, a) + Attachments(cached, dir, host, b)
  {
  }

  /** Running the attachment loop over two outcome lists in turn is running it over both at once. */
  lemma {:induction false} AttachLoopConcat(t: Taken, a: seq<Option<Entry>>, b: seq<Option<Entry>>)
    ensures AttachLoop(t, a + b) == AttachLoop(AttachLoop(t, a), b)
    decreases |a|
  {
    if |a| == 0 {
      assert a + b == b;
    } else if t.global > 0 && t.creator > 0 {
      var next := if a[0].Some? then Taken(t.global - 1, t.creator - 1, t.entries + [a[0].value]) else t;
      assert (a + b)[0] == a[0] && (a + b)[1..] == a[1..] + b;
      AttachLoopConcat(next, a[1..], b);
    }
  }

  /** The corrected main-file step is one more turn of the attachment loop. */
  lemma MainFileIsAttachStep(t: Taken, outcome: Option<Entry>)
    ensures MainFile(t, outcome) == AttachLoop(t, [outcome])
  {
    assert [outcome][1..] == [];
  }

  /** One corrected post runs the attachment loop over the outcomes of all its paths, main file last. */
  lemma PostStepIsAttachLoop(t: Taken, cached: set<string>, dir: string, host: string, post: KPost)
    ensures PostStep(t, cached, dir, host, post) == AttachLoop(t, Attachments(cached, dir, host, PostPaths(post)))
  {
    var atts := Attachments(cached, dir, host, post.attachments);
    match post.file
    case None =>
      assert PostPaths(post) == post.attachments;
    case Some(f) =>
      AttachmentsConcat(cached, dir, host, post.attachments, [f]);
      OneAttachment(cached, dir, host, f);
      AttachLoopConcat(t, atts, [CorrectedOutcome(cached, dir, host, f)]);
      MainFileIsAttachStep(AttachLoop(t, atts), CorrectedOutcome(cached, dir, host, f));
  }

  /**
   * Completeness of the corrected loop over posts: it records what the loop
   * over the corrected outcomes of every path of every post records, in
   * order, post boundaries playing no part; only an exhausted limit stops it.
   */
  lemma {:induction false} PostsIsAttachLoop(t: Taken, cached: set<string>, dir: string, host: string, posts: seq<KPost>)
    ensures Posts(t, cached, dir, host, posts) == AttachLoop(t, Attachments(cached, dir, host, AllPaths(posts)))
    ensures var s := TakePosts(t.global, t.creator, Attachments(cached, dir, host, AllPaths(posts)));
            Posts(t, cached, dir, host, posts) == Taken(s.global, s.creator, t.entries + s.entries)
    decreases |posts|
  {
    if |posts| > 0 {
      var first := Attachments(cached, dir, host, PostPaths(posts[0]));
      var rest := Attachments(cached, dir, host, AllPaths(posts[1..]));
      AttachmentsConcat(cached, dir, host, PostPaths(posts[0]), AllPaths(posts[1..]));
      if t.global > 0 && t.creator > 0 {
        var next := PostStep(t, cached, dir, host, posts[0]);
        PostStepIsAttachLoop(t, cached, dir, host, posts[0]);
        PostsIsAttachLoop(next, cached, dir, host, posts[1..]);
        AttachLoopConcat(t, first, rest);
      } else {
        PostsIsAttachLoop(t, cached, dir, host, posts[1..]);
      }
    }
    BreakMatchesSkip(t, Attachments(cached, dir, host, AllPaths(posts)));
  }

  /**
   * The files the corrected outcomes hold are exactly those the branch as
   * written finds for the present paths, in order: skipping a pathless
   * attachment or main file is the only change.
   */
  lemma {:induction false} CorrectedSkipsPathless(cached: set<string>, dir: string, host: string, paths: seq<Option<string>>)
    ensures Present(Attachments(cached, dir, host, paths))
              == Present(AttachmentsAsWritten(cached, dir, host, WithPath(paths)))
    decreases |paths|
  {
    if |paths| > 0 {
      CorrectedSkipsPathless(cached, dir, host, paths[1..]);
      var a := Attachments(cached, dir, host, paths);
      assert a[1..] == Attachments(cached, dir, host, paths[1..]);
      var w := WithPath(paths[1..]);
      if HasPath(paths[0]) {
        var aw := AttachmentsAsWritten(cached, dir, host, [paths[0]] + w);
        assert WithPath(paths) == [paths[0]] + w;
        assert aw[1..] == AttachmentsAsWritten(cached, dir, host, w);
        assert a[0] == aw[0];
      } else {
        assert WithPath(paths) == w;
        assert a[0] == None;
      }
    }
  }

  /** From no entries, the corrected loop over posts is the page loop over the corrected outcomes of all paths. */
  lemma PostsFromScratch(global: int, creator: int, cached: set<string>, dir: string, host: string, posts: seq<KPost>)
    ensures Posts(Taken(global, creator, []), cached, dir, host, posts)
              == TakePosts(global, creator, Attachments(cached, dir, host, AllPaths(posts)))
  {
    var t := Taken(global, creator, []);
    var s := TakePosts(global, creator, Attachments(cached, dir, host, AllPaths(posts)));
    var r := Posts(t, cached, dir, host, posts);
    PostsIsAttachLoop(t, cached, dir, host, posts);
    FreshStart(t, s);
  }

  /** Extending no entries by those of `s` gives `s` back. */
  lemma FreshStart(t: Taken, s: Taken)
    requires t.entries == []
    ensures Taken(s.global, s.creator, t.entries + s.entries) == s
  {
    assert t.entries + s.entries == s.entries;
  }

  /**
   * The posts that show the missing-path defect, one with an attachment
   * whose `path` is missing and one whose `path` is empty: as written each
   * records one file whose URL is named by no path of the post list; the
   * corrected branch records nothing for either.
   */
  lemma PathlessPostContrast(platform: string, dir: string, global: int, creator: int, cached: set<string>, path: Option<string>)
    requires global > 0 && creator > 0 && Hoster(platform) !in cached
    requires !HasPath(path)
    ensures var posts := [KPost([path], None)];
            var w := ScrapeAsWritten(platform, global, creator, cached, dir, PostList(posts));
            && |w.entries| == 1
            && !NamedIn(Hoster(platform), w.entries[0], AllPaths(posts))
            && Scrape(platform, global, creator, cached, dir, PostList(posts)).entries == []
  {
    var posts := [KPost([path], None)];
    var t := Taken(global, creator, []);
    if path.None? {
      MissingPathRecordsHostName(platform, dir, t, cached);
    } else {
      EmptyPathRecordsHostName(platform, dir, t, cached);
    }
    assert AllPaths(posts) == [path] by {
      assert posts[1..] == [];
    }
    NoPathNamesNothing(Hoster(platform), path);
    OneAttachment(cached, dir, Hoster(platform), path);
    OnePost(t, cached, dir, Hoster(platform), posts[0]);
    assert AttachLoop(t, [None]) == t;
  }

  /** A list holding one absent or empty path names no entry. */
  lemma NoPathNamesNothing(host: string, path: Option<string>)
    requires !HasPath(path)
    ensures forall e :: !NamedIn(host, e, [path])
  {
    var none: seq<Option<string>> := [path];
    forall e ensures !NamedIn(host, e, none) {
      forall p: string | Some(p) in none ensures p == "" {
      }
    }
  }

  /** On the input that overran the limit as written, the corrected branch records one file and stops at zero. */
  lemma CorrectedStopsAtLimit(platform: string, dir: string, creator: int, a: string, b: string)
    requires creator > 1
    requires |a| > 0 && '/' !in a && '.' !in a
    requires |b| > 0 && '/' !in b && '.' !in b
    ensures var host := Hoster(platform);
            var post := KPost([Some("/" + a + ".jpg")], Some(Some("/" + b + ".jpg")));
            var r := Posts(Taken(1, creator, []), {}, dir, host, [post]);
            |r.entries| == 1 && r.global == 0
  {
    var host := Hoster(platform);
    var post := KPost([Some("/" + a + ".jpg")], Some(Some("/" + b + ".jpg")));
    var ea := NewFile(dir, host, a);
    var outs := Attachments({}, dir, host, [Some("/" + a + ".jpg")]);
    OneAttachment({}, dir, host, Some("/" + a + ".jpg"));
    SingleAttachment(Taken(1, creator, []), outs, ea);
    OnePost(Taken(1, creator, []), {}, dir, host, post);
  }

  /**
   * Where neither defect can arise — every attachment has a non-empty path —
   * the corrected attachment outcomes are the ones as written.
   */
  lemma AgreesWhenPathsPresent(cached: set<string>, dir: string, host: string, paths: seq<Option<string>>)
    requires forall k :: 0 <= k < |paths| ==> HasPath(paths[k])
    ensures Attachments(cached, dir, host, paths) == AttachmentsAsWritten(cached, dir, host, paths)
  {
  }
}

=== FILE: paths.dfy ===
/**
 * The string and path primitives the downloader relies on, written out with
 * Python's semantics: `str.rfind`, `str.split('/')[-1]`, `str.rsplit('.', 1)[0]`,
 * `pathlib.PurePosixPath.name` / `.stem` / `.suffix` and `os.path.splitext`.
 */
module Paths {
  import opened Wrappers

  /** Python's `s.rfind(c)`: the last index holding `c`, or -1 when there is none. */
  function RFind(s: string, c: char): (i: int)
    ensures -1 <= i < |s|
    ensures 0 <= i ==> s[i] == c
    ensures forall j :: i < j < |s| ==> s[j] != c

  {
    if |s| == 0 then -1
    else if s[|s| - 1] == c then |s| - 1
    else RFind(s[..|s| - 1], c)
  }

  /** `RFind` is pinned down by its contract: an occurrence with none after it is the one found. */
  lemma RFindIsLast(s: string, c: char, i: nat)
    requires i < |s| && s[i] == c && c !in s[i + 1..]
    ensures RFind(s, c) == i
  {
  }

  /** With no occurrence at all, `RFind` answers -1. */
  lemma RFindAbsent(s: string, c: char)
    requires c !in s
    ensures RFind(s, c) == -1
  {
  }

  /** The last `c` of `prefix + tail` ends `prefix` when `tail` holds no `c`. */
  lemma RFindAfter(prefix: string, tail: string, c: char)
    requires 0 < |prefix| && prefix[|prefix| - 1] == c && c !in tail
    ensures RFind(prefix + tail, c) == |prefix| - 1
  {
    var s := prefix + tail;
    assert s[|prefix|..] == tail;
    RFindIsLast(s, c, |prefix| - 1);
  }

  /** `s.split('/')[-1]`: everything after the last slash. */
  function LastSegment(s: string): (r: string)
    ensures '/' !in r
    ensures |r| <= |s| && r == s[|s| - |r|..]
    ensures |r| < |s| ==> s[|s| - |r| - 1] == '/'
  {
    s[RFind(s, '/') + 1..]
  }

  /** String concatenation regroups freely. */
  lemma ConcatAssociates(a: string, b: string, c: string)
    ensures (a + b) + c == a + (b + c)
  {
  }

  /** A character in neither half is not in the concatenation. */
  lemma NotInConcat(a: string, b: string, c: char)
    requires c !in a && c !in b
    ensures c !in a + b
  {
    assert forall k :: 0 <= k < |a + b| ==> (a + b)[k] == if k < |a| then a[k] else b[k - |a|];
  }

  /** Everything after a slash that ends `prefix` is the last segment, when it holds no slash. */
  lemma LastSegmentAfter(prefix: string, tail: string)
    requires 0 < |prefix| && prefix[|prefix| - 1] == '/' && '/' !in tail
    ensures LastSegment(prefix + tail) == tail
  {
    RFindAfter(prefix, tail, '/');
    assert (prefix + tail)[|prefix|..] == tail;
  }

  /** True when some character of `s` is not a dot. */
  predicate HasNonDot(s: string) {
    exists k :: 0 <= k < |s| && s[k] != '.'
  }

  /** A non-empty string without dots has a non-dot. */
  lemma NoDotHasNonDot(s: string)
    requires |s| > 0 && '.' !in s
    ensures HasNonDot(s)
  {
    assert s[0] != '.';
  }

  /**
   * The final component of a POSIX path as `pathlib` reports it: empty and `.`
   * components are dropped, so `a/b/` and `a/b/.` both name `b`.
   */
  function Name(p: string): (r: string)
    ensures '/' !in r && r != "."
    decreases |p|
  {
    var seg := LastSegment(p);
    if seg != "" && seg != "." then seg
    else if |seg| == |p| then ""
    else Name(p[..|p| - |seg| - 1])
  }

  /** A path with no slash that is neither empty nor `.` is its own name. */
  lemma NameOfPlainFile(n: string)
    requires '/' !in n && n != "" && n != "."
    ensures Name(n) == n
  {
    assert LastSegment(n) == n;
  }

  /** `PurePath.suffix`: the final `.xyz` of the name, unless the dot leads or ends it. */
  function Suffix(p: string): (r: string)
    ensures r == "" || (|r| >= 2 && r[0] == '.' && '.' !in r[1..])
    ensures '/' !in r
  {
    var n := Name(p);
    var i := RFind(n, '.');
    if 0 < i < |n| - 1 then
      n[i..]
    else ""
  }

  /** `PurePath.stem`: the name without its suffix. */
  function Stem(p: string): (r: string)
    ensures r + Suffix(p) == Name(p)
    ensures '/' !in r
  {
    var n := Name(p);
    StemAt(n, RFind(n, '.'))
  }

  /** The name `n` cut at its last dot `i`, when `i` leaves a non-empty stem and suffix. */
  function StemAt(n: string, i: int): (r: string)
    requires -1 <= i < |n|
    ensures r + (if 0 < i < |n| - 1 then n[i..] else "") == n
    ensures r <= n
  {
    if 0 < i < |n| - 1 then n[..i] else n
  }

  /**
   * The extension half of `os.path.splitext(p)`: from the last dot that lies
   * after the last slash, unless every character of the file name before that
   * dot is itself a dot.
   */
  function SplitExt(p: string): (ext: string)
    ensures ext != "" ==> ext[0] == '.'
    ensures |ext| <= |p| && ext == p[|p| - |ext|..]
  {
    ExtensionAt(p, RFind(p, '/'), RFind(p, '.'))
  }

  /** The extension `splitext` takes, given the last slash `sep` and the last dot `dot` of `p`. */
  function ExtensionAt(p: string, sep: int, dot: int): (ext: string)
    requires -1 <= sep < |p| && -1 <= dot < |p|
    ensures ext != "" ==> 0 <= dot && ext[0] == '.' && ext == p[dot..]
    ensures |ext| <= |p| && ext == p[|p| - |ext|..]
  {
    if dot > sep && HasNonDot(p[sep + 1..dot]) && p[dot] == '.' then p[dot..] else ""
  }

  /**
   * `splitext` of a path whose file name is `base.ext`, with a non-dot in
   * `base` and no dot in `ext`, is `.ext`.
   */
  lemma ExtensionOfFileName(url: string, prefix: string, base: string, ext: string)
    requires 0 < |prefix| && prefix[|prefix| - 1] == '/'
    requires '/' !in base && '/' !in ext && '.' !in ext && HasNonDot(base)
    requires url == prefix + ((base + ".") + ext)
    ensures SplitExt(url) == "." + ext
  {
    NotInConcat(base, ".", '/');
    NotInConcat(base + ".", ext, '/');
    RFindAfter(prefix, (base + ".") + ext, '/');
    assert url == (prefix + (base + ".")) + ext;
    RFindAfter(prefix + (base + "."), ext, '.');
    var dot := |prefix| + |base|;
    assert url[|prefix|..dot] == base;
    assert url[dot..] == "." + ext;
  }
}

=== FILE: producer.dfy ===
/**
 * The producer side of the pipeline (`Fetcher.Posts` in Fetcher.py): one page
 * of a creator's posts is filtered against the known fingerprints, new primary
 * files are put on the bounded download queue, attachments are only recorded,
 * and the page decides whether the next page is fetched.
 */
module Producer {
  import opened Wrappers
  import opened Paths
  import opened Fingerprints

  /** A page must yield at least this many new files for pagination to go on. */
  const MinNewPostsThreshold: nat := 10

  /** Capacity of the download queue. */
  const QueueLimit: nat := 2500

  /**
   * One post of the listing. A path of `""` stands for a missing or empty
   * `path` (both are falsy in the source and are skipped).
   */
  datatype Post = Post(file: string, attachments: seq<string>)

  /**
   * A file reference of a page, in the order the source visits them, with the
   * `stem` and `suffix` of its path computed once.
   */
  datatype Ref = Ref(path: string, stem: string, suffix: string, primary: bool)

  function MakeRef(path: string, primary: bool): (r: Ref)
    ensures r.path == path && r.primary == primary
  {
    Ref(path, Stem(path), Suffix(path), primary)
  }

  /** The creator whose posts are paginated, with the platform's file host and directory label. */
  datatype Creator = Creator(id: string, name: string, fileUrl: string, directory: string)

  /** `FileData` of Fetcher.py: the descriptor handed to the downloader. */
  datatype FileData = FileData(id: string, name: string, url: string, dir: string, hash: string, extension: string)

  /** The bounded download queue as the producer sees it while a page is processed. */
  datatype Queue = Queue(size: nat, capacity: nat) {
    /** `asyncio.Queue(maxsize=QueueLimit)` never holds more than its capacity. */
    predicate Valid() {
      0 < capacity && size <= capacity
    }
  }

  /** Running counters of one page: `CurrentCounter`, `NewPostsCount`, `CurrentSkipped`,
      the increments of `Counter`, the `Posts` list and the items put on the queue. */
  datatype Tally = Tally(
    seen: nat,
    newCount: nat,
    skipped: nat,
    added: nat,
    recorded: seq<FileData>,
    enqueued: seq<FileData>,
    dropped: bool)

  const EmptyTally := Tally(0, 0, 0, 0, [], [], false)

  function Describe(c: Creator, r: Ref): FileData {
    FileData(c.id, c.name, c.fileUrl + r.path, "Data/" + c.directory + "/" + c.name, r.stem, r.suffix)
  }

  /** A reference is new when no known hash is a prefix of its stem. */
  predicate Fresh(known: set<string>, r: Ref) {
    !IsKnown(known, r.stem)
  }

  // ---------------------------------------------------------------------
  // Flattening a page
  // ---------------------------------------------------------------------

  function AttachmentRefs(attachments: seq<string>): (rs: seq<Ref>)
    ensures forall i :: 0 <= i < |rs| ==> !rs[i].primary && rs[i].path != ""
  {
    if |attachments| == 0 then []
    else
      var last := attachments[|attachments| - 1];
      AttachmentRefs(attachments[..|attachments| - 1]) + (if last != "" then [MakeRef(last, false)] else [])
  }

  /** A post's references: the main file first, then its attachments. */
  function PostRefs(p: Post): seq<Ref> {
    (if p.file != "" then [MakeRef(p.file, true)] else []) + AttachmentRefs(p.attachments)
  }

  function Refs(posts: seq<Post>): seq<Ref> {
    if |posts| == 0 then [] else Refs(posts[..|posts| - 1]) + PostRefs(posts[|posts| - 1])
  }

  // ---------------------------------------------------------------------
  // Processing a page (Fetcher.py lines 395-442)
  // ---------------------------------------------------------------------

  /**
   * One reference. A known one is only counted as skipped. A new one is counted
   * and recorded; a new main file is then put on the queue, unless the queue is
   * full, in which case the rest of the page is abandoned. New attachments are
   * recorded but never put on the queue.
   */
  function Step(t: Tally, r: Ref, known: set<string>, c: Creator, q: Queue): Tally {
    var d := Describe(c, r);
    if !Fresh(known, r) then
      t.(seen := t.seen + 1, skipped := t.skipped + 1)
    else if r.primary && q.size + |t.enqueued| >= q.capacity then
      t.(seen := t.seen + 1, newCount := t.newCount + 1, recorded := t.recorded + [d], dropped := true)
    else
      t.(seen := t.seen + 1, newCount := t.newCount + 1, added := t.added + 1, recorded := t.recorded + [d],
         enqueued := if r.primary then t.enqueued + [d] else t.enqueued)
  }

  /** The references of a page in order, stopping at the first drop. */
  function Scan(rs: seq<Ref>, known: set<string>, c: Creator, q: Queue): Tally {
    if |rs| == 0 then EmptyTally
    else
      var t := Scan(rs[..|rs| - 1], known, c, q);
      if t.dropped then t else Step(t, rs[|rs| - 1], known, c, q)
  }

  /** The counters of one page of posts. */
  function Page(posts: seq<Post>, known: set<string>, c: Creator, q: Queue): Tally {
    Scan(Refs(posts), known, c, q)
  }

  // ---------------------------------------------------------------------
  // The declarative description of a page
  // ---------------------------------------------------------------------

  function NewRefs(known: set<string>, rs: seq<Ref>): (r: seq<Ref>)
    ensures |r| <= |rs|
    ensures forall i :: 0 <= i < |r| ==> Fresh(known, r[i])
  {
    if |rs| == 0 then []
    else
      var last := rs[|rs| - 1];
      NewRefs(known, rs[..|rs| - 1]) + (if Fresh(known, last) then [last] else [])
  }

  function NewPrimaries(known: set<string>, rs: seq<Ref>): (r: seq<Ref>)
    ensures |r| <= |rs|
    ensures forall i :: 0 <= i < |r| ==> Fresh(known, r[i]) && r[i].primary
  {
    if |rs| == 0 then []
    else
      var last := rs[|rs| - 1];
      NewPrimaries(known, rs[..|rs| - 1]) + (if Fresh(known, last) && last.primary then [last] else [])
  }

  function KnownCount(known: set<string>, rs: seq<Ref>): (n: nat)
    ensures n + |NewRefs(known, rs)| == |rs|
  {
    if |rs| == 0 then 0
    else KnownCount(known, rs[..|rs| - 1]) + (if Fresh(known, rs[|rs| - 1]) then 0 else 1)
  }

  function DescribeAll(c: Creator, rs: seq<Ref>): (ds: seq<FileData>)
    ensures |ds| == |rs|
  {
    if |rs| == 0 then [] else DescribeAll(c, rs[..|rs| - 1]) + [Describe(c, rs[|rs| - 1])]
  }

  /** The counters after handling all of `rs` without a drop. */
  function Summary(rs: seq<Ref>, known: set<string>, c: Creator): Tally {
    var newRefs := NewRefs(known, rs);
    Tally(|rs|, |newRefs|, KnownCount(known, rs), |newRefs|,
          DescribeAll(c, newRefs), DescribeAll(c, NewPrimaries(known, rs)), false)
  }

  /** The counters after handling `rs` and then dropping the new main file `r`. */
  function DroppedAfter(rs: seq<Ref>, r: Ref, known: set<string>, c: Creator): Tally {
    var s := Summary(rs, known, c);
    s.(seen := s.seen + 1, newCount := s.newCount + 1, recorded := s.recorded + [Describe(c, r)], dropped := true)
  }

  /**
   * What a page does, stated without the loop: the page is abandoned exactly
   * when it holds more new main files than the queue has free slots. Without a
   * drop every reference is counted, every new one recorded and every new main
   * file enqueued. With a drop, the references before the dropped main file are
   * handled in full, that main file is counted and recorded but not enqueued,
   * and nothing after it is looked at.
   */
  lemma {:induction false} ScanCharacterised(rs: seq<Ref>, known: set<string>, c: Creator, q: Queue)
    requires q.Valid()
    ensures var t := Scan(rs, known, c, q);
            && (t.dropped <==> |NewPrimaries(known, rs)| > q.capacity - q.size)
            && (!t.dropped ==> t == Summary(rs, known, c))
            && (t.dropped ==>
                  && 0 < t.seen <= |rs|
                  && rs[t.seen - 1].primary && Fresh(known, rs[t.seen - 1])
                  && |NewPrimaries(known, rs[..t.seen - 1])| == q.capacity - q.size
                  && t == DroppedAfter(rs[..t.seen - 1], rs[t.seen - 1], known, c))
  {
    if |rs| > 0 {
      var r0 := rs[..|rs| - 1];
      var r := rs[|rs| - 1];
      assert r0 + [r] == rs;
      ScanCharacterised(r0, known, c, q);
      assert ScanShape(r0, known, c, q, Scan(r0, known, c, q));
      if Scan(r0, known, c, q).dropped {
        ScanAfterDrop(r0, r, known, c, q);
      } else {
        ScanAfterSummary(r0, r, known, c, q);
      }
    }
  }

  /** The property `ScanCharacterised` states about the counters `t` of `rs`. */
  predicate ScanShape(rs: seq<Ref>, known: set<string>, c: Creator, q: Queue, t: Tally)
    requires q.Valid()
  {
    && (t.dropped <==> |NewPrimaries(known, rs)| > q.capacity - q.size)
    && (!t.dropped ==> t == Summary(rs, known, c))
    && (t.dropped ==>
          && 0 < t.seen <= |rs|
          && rs[t.seen - 1].primary && Fresh(known, rs[t.seen - 1])
          && |NewPrimaries(known, rs[..t.seen - 1])| == q.capacity - q.size
          && t == DroppedAfter(rs[..t.seen - 1], rs[t.seen - 1], known, c))
  }

  /** After a drop, one more reference changes nothing and the drop stays where it was. */
  lemma ScanAfterDrop(r0: seq<Ref>, r: Ref, known: set<string>, c: Creator, q: Queue)
    requires q.Valid()
    requires Scan(r0, known, c, q).dropped && ScanShape(r0, known, c, q, Scan(r0, known, c, q))
    ensures ScanShape(r0 + [r], known, c, q, Scan(r0 + [r], known, c, q))
  {
    var rs := r0 + [r];
    var t0 := Scan(r0, known, c, q);
    assert rs[..|rs| - 1] == r0;
    NewPrimariesSnoc(known, r0, r);
    assert rs[t0.seen - 1] == r0[t0.seen - 1];
    assert rs[..t0.seen - 1] == r0[..t0.seen - 1];
  }

  /** Without a drop so far, one more reference is one `Step` on the summary. */
  lemma ScanAfterSummary(r0: seq<Ref>, r: Ref, known: set<string>, c: Creator, q: Queue)
    requires q.Valid()
    requires !Scan(r0, known, c, q).dropped && ScanShape(r0, known, c, q, Scan(r0, known, c, q))
    ensures ScanShape(r0 + [r], known, c, q, Scan(r0 + [r], known, c, q))
  {
    var rs := r0 + [r];
    assert rs[..|rs| - 1] == r0;
    NewPrimariesSnoc(known, r0, r);
    StepOnSummary(r0, r, known, c, q);
    assert rs[..|r0|] == r0;
  }

  /** One more reference after a prefix that was handled without a drop. */
  lemma StepOnSummary(r0: seq<Ref>, r: Ref, known: set<string>, c: Creator, q: Queue)
    requires q.Valid() && |NewPrimaries(known, r0)| <= q.capacity - q.size
    ensures var t := Step(Summary(r0, known, c), r, known, c, q);
            && (t.dropped <==> Fresh(known, r) && r.primary && |NewPrimaries(known, r0)| == q.capacity - q.size)
            && (!t.dropped ==> t == Summary(r0 + [r], known, c))
            && (t.dropped ==> t == DroppedAfter(r0, r, known, c))
  {
    var rs := r0 + [r];
    assert rs[..|r0|] == r0;
    assert rs[|rs| - 1] == r;
    NewPrimariesSnoc(known, r0, r);
    var s0 := Summary(r0, known, c);
    var t := Step(s0, r, known, c, q);
    if !Fresh(known, r) {
      assert NewRefs(known, rs) == NewRefs(known, r0);
      assert NewPrimaries(known, rs) == NewPrimaries(known, r0);
      assert t == Summary(rs, known, c);
    } else {
      assert NewRefs(known, rs) == NewRefs(known, r0) + [r];
      DescribeAllSnoc(c, NewRefs(known, r0), r);
      if r.primary && q.size + |s0.enqueued| >= q.capacity {
        assert t == DroppedAfter(r0, r, known, c);
      } else if r.primary {
        DescribeAllSnoc(c, NewPrimaries(known, r0), r);
        assert t == Summary(rs, known, c);
      } else {
        assert NewPrimaries(known, rs) == NewPrimaries(known, r0);
        assert KnownCount(known, rs) == KnownCount(known, r0);
        assert t.enqueued == s0.enqueued;
        assert t == Summary(rs, known, c);
      }
    }
  }

  lemma NewPrimariesSnoc(known: set<string>, r0: seq<Ref>, r: Ref)
    ensures NewPrimaries(known, r0 + [r]) == NewPrimaries(known, r0) + (if Fresh(known, r) && r.primary then [r] else [])
  {
    assert (r0 + [r])[..|r0|] == r0;
  }

  lemma DescribeAllSnoc(c: Creator, rs: seq<Ref>, r: Ref)
    ensures DescribeAll(c, rs + [r]) == DescribeAll(c, rs) + [Describe(c, r)]
  {
    assert (rs + [r])[..|rs|] == rs;
  }

  /** Invariant (a) of the fingerprint store: nothing known is ever put on the queue. */
  lemma EnqueuedAreUnknown(posts: seq<Post>, known: set<string>, c: Creator, q: Queue)
    requires q.Valid()
    ensures forall d :: d in Page(posts, known, c, q).enqueued ==> !IsKnown(known, d.hash)
  {
    var rs := Refs(posts);
    ScanCharacterised(rs, known, c, q);
    var t := Page(posts, known, c, q);
    var prefix := if t.dropped then rs[..t.seen - 1] else rs;
    assert t.enqueued == DescribeAll(c, NewPrimaries(known, prefix));
    DescribedNewAreUnknown(c, known, NewPrimaries(known, prefix));
  }

  /** Describing new references keeps their stems, so no descriptor carries a known hash. */
  lemma {:induction false} DescribedNewAreUnknown(c: Creator, known: set<string>, rs: seq<Ref>)
    requires forall i :: 0 <= i < |rs| ==> Fresh(known, rs[i])
    ensures forall d :: d in DescribeAll(c, rs) ==> !IsKnown(known, d.hash)
  {
    if |rs| > 0 {
      DescribedNewAreUnknown(c, known, rs[..|rs| - 1]);
    }
  }

  /**
   * The counters agree: each reference looked at is either new or skipped, and
   * every new one except a dropped main file is added to `Counter`.
   */
  lemma PageCounters(posts: seq<Post>, known: set<string>, c: Creator, q: Queue)
    requires q.Valid()
    ensures var t := Page(posts, known, c, q);
            && t.newCount + t.skipped == t.seen
            && t.added + (if t.dropped then 1 else 0) == t.newCount
            && |t.recorded| == t.newCount
            && t.seen <= |Refs(posts)|
            && (!t.dropped ==> t.seen == |Refs(posts)|)
  {
    ScanCharacterised(Refs(posts), known, c, q);
  }

  /** The queue never grows past its capacity: at most one item per free slot is put. */
  lemma QueueStaysBounded(posts: seq<Post>, known: set<string>, c: Creator, q: Queue)
    requires q.Valid()
    ensures q.size + |Page(posts, known, c, q).enqueued| <= q.capacity
  {
    ScanCharacterised(Refs(posts), known, c, q);
  }

  // ---------------------------------------------------------------------
  // Fetching one page (Fetcher.py lines 372-457)
  // ---------------------------------------------------------------------

  /** The response to one page request: a status with the decoded posts, or a raised exception. */
  datatype Response = Answer(status: int, posts: seq<Post>) | Raised

  datatype PageOutcome = PageOutcome(more: bool, tally: Tally)

  /**
   * One call of the inner `Fetch`: returns whether the page counter advances and
   * the next page is fetched. Only a 200 answer with a non-empty list that
   * yields at least `MinNewPostsThreshold` new files continues.
   */
  function FetchPage(stopped: bool, response: Response, known: set<string>, c: Creator, q: Queue): (o: PageOutcome)
    ensures o.more <==> !stopped && response.Answer? && response.status == 200 && |response.posts| > 0
                        && o.tally.newCount >= MinNewPostsThreshold
    ensures !(!stopped && response.Answer? && response.status == 200) ==> o.tally == EmptyTally
    ensures !stopped && response.Answer? && response.status == 200 ==>
              o.tally == if |response.posts| == 0 then EmptyTally else Page(response.posts, known, c, q)
  {
    if stopped then PageOutcome(false, EmptyTally)
    else match response
      case Raised => PageOutcome(false, EmptyTally)
      case Answer(status, posts) =>
        if status != 200 || |posts| == 0 then PageOutcome(false, EmptyTally)
        else
          var t := Page(posts, known, c, q);
          PageOutcome(t.newCount >= MinNewPostsThreshold, t)
  }

  /**
   * When the queue has room for every new main file of the page, pagination
   * continues exactly when the page holds at least `MinNewPostsThreshold`
   * references whose stems are not known.
   */
  lemma ContinuesIffEnoughNew(stopped: bool, response: Response, known: set<string>, c: Creator, q: Queue)
    requires q.Valid()
    requires !stopped && response.Answer? && response.status == 200 && |response.posts| > 0
    requires |NewPrimaries(known, Refs(response.posts))| <= q.capacity - q.size
    ensures FetchPage(stopped, response, known, c, q).more <==> |NewRefs(known, Refs(response.posts))| >= MinNewPostsThreshold
  {
    ScanCharacterised(Refs(response.posts), known, c, q);
  }

  /** A page that continues pagination has put or recorded at least nine new files. */
  lemma ContinuingPageFoundNewFiles(stopped: bool, response: Response, known: set<string>, c: Creator, q: Queue)
    requires q.Valid()
    requires FetchPage(stopped, response, known, c, q).more
    ensures FetchPage(stopped, response, known, c, q).tally.added >= MinNewPostsThreshold - 1
  {
    PageCounters(response.posts, known, c, q);
  }

  // ---------------------------------------------------------------------
  // Paginating one creator (Fetcher.py lines 359-463)
  // ---------------------------------------------------------------------

  /**
   * What the producer observes before requesting a page: whether the shared
   * halt flag is set, the queue size once any backpressure pause is over, and
   * the server's answer.
   */
  datatype PageInput = PageInput(halted: bool, queueSize: nat, response: Response)

  /** `Page` (pages advanced), `Counter`, `SkippedCounter`, the items put, and the pages requested. */
  datatype CreatorRun = CreatorRun(page: nat, counter: nat, skippedCounter: nat, enqueued: seq<FileData>, fetched: nat)

  predicate ValidInputs(pages: seq<PageInput>, capacity: nat) {
    0 < capacity && forall i :: 0 <= i < |pages| ==> pages[i].queueSize <= capacity
  }

  /**
   * `while not self.Stopped and await Fetch(Creator)`: pages are requested in
   * order until the halt flag is seen or a page does not continue. The input
   * running out also ends the run.
   */
  function RunCreator(c: Creator, known: set<string>, capacity: nat, pages: seq<PageInput>): (r: CreatorRun)
    requires ValidInputs(pages, capacity)
    ensures r.fetched <= |pages|
    ensures r.page <= r.fetched
    decreases |pages|
  {
    if |pages| == 0 || pages[0].halted then CreatorRun(0, 0, 0, [], 0)
    else
      var q := Queue(pages[0].queueSize, capacity);
      var o := FetchPage(false, pages[0].response, known, c, q);
      if !o.more then CreatorRun(0, o.tally.added, o.tally.skipped, o.tally.enqueued, 1)
      else
        var rest := RunCreator(c, known, capacity, pages[1..]);
        CreatorRun(rest.page + 1, o.tally.added + rest.counter, o.tally.skipped + rest.skippedCounter,
                   o.tally.enqueued + rest.enqueued, rest.fetched + 1)
  }

  /**
   * No page is requested once the halt flag has been observed, and every page
   * the counter advanced past yielded enough new files to continue.
   */
  lemma {:induction false} RunRespectsHaltAndStopRule(c: Creator, known: set<string>, capacity: nat, pages: seq<PageInput>)
    requires ValidInputs(pages, capacity)
    ensures var r := RunCreator(c, known, capacity, pages);
            && (forall i :: 0 <= i < r.fetched ==> !pages[i].halted)
            && (forall i :: 0 <= i < r.page ==> FetchPage(false, pages[i].response, known, c, Queue(pages[i].queueSize, capacity)).more)
  {
    if |pages| > 0 && !pages[0].halted {
      assert ValidInputs(pages[1..], capacity);
      RunRespectsHaltAndStopRule(c, known, capacity, pages[1..]);
      var r := RunCreator(c, known, capacity, pages);
      forall i | 0 < i < r.fetched ensures !pages[i].halted {
        assert pages[1..][i - 1] == pages[i];
      }
      forall i | 0 < i < r.page
        ensures FetchPage(false, pages[i].response, known, c, Queue(pages[i].queueSize, capacity)).more
      {
        assert pages[1..][i - 1] == pages[i];
      }
    }
  }

  /** Once the halt flag is observed before some page, neither it nor any later page is requested. */
  lemma HaltStopsPagination(c: Creator, known: set<string>, capacity: nat, pages: seq<PageInput>, i: nat)
    requires ValidInputs(pages, capacity)
    requires i < |pages| && pages[i].halted
    ensures RunCreator(c, known, capacity, pages).fetched <= i
  {
    RunRespectsHaltAndStopRule(c, known, capacity, pages);
  }

  /** Over a whole creator, nothing whose stem is known is ever put on the queue. */
  lemma {:induction false} RunEnqueuesOnlyUnknown(c: Creator, known: set<string>, capacity: nat, pages: seq<PageInput>)
    requires ValidInputs(pages, capacity)
    ensures forall d :: d in RunCreator(c, known, capacity, pages).enqueued ==> !IsKnown(known, d.hash)
  {
    if |pages| > 0 && !pages[0].halted {
      var q := Queue(pages[0].queueSize, capacity);
      if pages[0].response.Answer? {
        EnqueuedAreUnknown(pages[0].response.posts, known, c, q);
      }
      assert ValidInputs(pages[1..], capacity);
      RunEnqueuesOnlyUnknown(c, known, capacity, pages[1..]);
    }
  }

  /**
   * The run stops at the first page that does not continue: that page is the
   * last one requested, and the page counter stays one behind the requests.
   */
  lemma {:induction false} RunStopsAtFirstFinalPage(c: Creator, known: set<string>, capacity: nat, pages: seq<PageInput>, i: nat)
    requires ValidInputs(pages, capacity)
    requires i < |pages|
    requires forall j :: 0 <= j <= i ==> !pages[j].halted
    requires forall j :: 0 <= j < i ==> FetchPage(false, pages[j].response, known, c, Queue(pages[j].queueSize, capacity)).more
    requires !FetchPage(false, pages[i].response, known, c, Queue(pages[i].queueSize, capacity)).more
    ensures RunCreator(c, known, capacity, pages).fetched == i + 1
    ensures RunCreator(c, known, capacity, pages).page == i
  {
    if i > 0 {
      assert ValidInputs(pages[1..], capacity);
      forall j | 0 <= j <= i - 1 ensures !pages[1..][j].halted {
        assert pages[1..][j] == pages[j + 1];
      }
      forall j | 0 <= j < i - 1
        ensures FetchPage(false, pages[1..][j].response, known, c, Queue(pages[1..][j].queueSize, capacity)).more
      {
        assert pages[1..][j] == pages[j + 1];
      }
      assert pages[1..][i - 1] == pages[i];
      RunStopsAtFirstFinalPage(c, known, capacity, pages[1..], i - 1);
    }
  }

  // ---------------------------------------------------------------------
  // Backpressure (Fetcher.py lines 365 and 379-383)
  // ---------------------------------------------------------------------

  /** `qsize >= maxsize * 0.8`, in exact arithmetic. */
  predicate ShouldPause(size: nat, capacity: nat) {
    5 * size >= 4 * capacity
  }

  /** `qsize <= maxsize * 0.8 * 0.2`, in exact arithmetic. */
  predicate MayResume(size: nat, capacity: nat) {
    25 * size <= 4 * capacity
  }

  /** The resume bound lies strictly below the pause bound, so the fetcher cannot flap. */
  lemma ResumeBelowPause(size: nat, capacity: nat)
    requires 0 < capacity
    ensures MayResume(size, capacity) ==> !ShouldPause(size, capacity)
    ensures ShouldPause(size, capacity) ==> !MayResume(size, capacity)
  {
  }

  /** With the configured queue of 2500: pause from 2000 items, resume at 400 or fewer. */
  lemma ConfiguredThresholds(size: nat)
    ensures ShouldPause(size, QueueLimit) <==> size >= 2000
    ensures MayResume(size, QueueLimit) <==> size <= 400
  {
  }

  /** A queue of 10: pause from 8 items, resume only at 1 or fewer (1.6 rounds down). */
  lemma SmallQueueThresholds(size: nat)
    ensures ShouldPause(size, 10) <==> size >= 8
    ensures MayResume(size, 10) <==> size <= 1
  {
  }

  /**
   * The pause loop: having paused, the fetcher polls the queue size once a
   * second (`samples`) and resumes at the first sample at or below the resume
   * bound; `None` when no polled sample gets there.
   */
  method AwaitResume(samples: seq<nat>, capacity: nat) returns (resumedAt: Option<nat>)
    ensures resumedAt.Some? ==> resumedAt.value < |samples| && MayResume(samples[resumedAt.value], capacity)
    ensures resumedAt.Some? ==> forall j :: 0 <= j < resumedAt.value ==> !MayResume(samples[j], capacity)
    ensures resumedAt.None? ==> forall j :: 0 <= j < |samples| ==> !MayResume(samples[j], capacity)
  {
    var i := 0;
    while i < |samples| && 25 * samples[i] > 4 * capacity
      invariant 0 <= i <= |samples|
      invariant forall j :: 0 <= j < i ==> !MayResume(samples[j], capacity)
    {
      i := i + 1;
    }
    resumedAt := if i < |samples| then Some(i) else None;
  }
}

=== FILE: records.dfy ===
/**
 * What `Fetcher.Scrape` (Main.py) records for one post URL, shared by all of
 * its platform branches: the URL's hash, unless the hash is empty or the cache
 * test accepts it, together with the path the file will be written to.
 *
 * The cache test is `FileHash in self.CachedHashes`, and `CachedHashes` is the
 * platform -> creator -> hashes cache. `in` on that dict looks at its keys,
 * the platform names, so as written it lets every real file hash through.
 * The outcome is stated over the set the test accepts: `CacheTest` is that
 * set as written, `CachedFor` the per-platform, per-creator lookup the cache
 * is evidently kept for.
 */
module Records {
  import opened Wrappers
  import opened Paths
  import opened Fingerprints
  import opened HashCache

  /** A recorded file: `[FileHash, FileUrl, DirectoryName + '/' + FileHash + extension]`. */
  datatype Entry = Entry(hash: string, url: string, path: string)

  /**
   * The entry a post URL yields: `None` when the URL is missing, its hash is
   * empty or the hash is in `cached`, the set the cache test accepts.
   */
  function Outcome(cached: set<string>, dir: string, url: Option<string>): (r: Option<Entry>)
    ensures r.Some? <==> var h := ExtractHash(url); h.Some? && h.value != "" && h.value !in cached
    ensures r.Some? ==> url == Some(r.value.url) && ExtractHash(url) == Some(r.value.hash)
    ensures r.Some? ==> r.value.hash != "" && r.value.hash !in cached
    ensures r.Some? ==> r.value.path == dir + "/" + r.value.hash + SplitExt(r.value.url)
  {
    var h := ExtractHash(url);
    if h.Some? && h.value != "" && h.value !in cached then
      Some(Entry(h.value, url.value, dir + "/" + h.value + SplitExt(url.value)))
    else None
  }

  /**
   * A recorded path is the directory, a slash and the URL's own file name,
   * whenever the hash is not made of dots only.
   */
  lemma RecordedPathKeepsFileName(cached: set<string>, dir: string, url: Option<string>)
    requires Outcome(cached, dir, url).Some?
    requires HasNonDot(Outcome(cached, dir, url).value.hash)
    ensures var e := Outcome(cached, dir, url).value;
            e.path == dir + "/" + LastSegment(e.url)
  {
    var e := Outcome(cached, dir, url).value;
    assert ExtractHash(Some(e.url)).value == e.hash;
    RecordedNameKeepsUrlFileName(e.url);
    assert e.hash + SplitExt(e.url) == LastSegment(e.url);
    assert e.path == dir + "/" + e.hash + SplitExt(e.url);
    var ext := SplitExt(e.url);
    ConcatAssociates(dir + "/", e.hash, ext);
  }

  /** An entry is new: its hash is non-empty, outside `cached` and the hash of its own URL. */
  predicate NewEntry(cached: set<string>, e: Entry) {
    e.hash != "" && e.hash !in cached && ExtractHash(Some(e.url)) == Some(e.hash)
  }

  /** The outcome of every post of a page, in page order. */
  function Outcomes(cached: set<string>, dir: string, urls: seq<Option<string>>): (r: seq<Option<Entry>>)
    ensures |r| == |urls|
    ensures forall k :: 0 <= k < |r| ==> r[k] == Outcome(cached, dir, urls[k])
  {
    seq(|urls|, k requires 0 <= k < |urls| => Outcome(cached, dir, urls[k]))
  }

  /** The recorded entries in a sequence of outcomes, in order. */
  function Present(outcomes: seq<Option<Entry>>): (r: seq<Entry>)
    ensures |r| <= |outcomes|
  {
    if |outcomes| == 0 then []
    else (if outcomes[0].Some? then [outcomes[0].value] else []) + Present(outcomes[1..])
  }

  /** Every entry `Present` keeps comes from some outcome. */
  lemma {:induction false} PresentFromOutcomes(outcomes: seq<Option<Entry>>)
    ensures forall e :: e in Present(outcomes) ==> Some(e) in outcomes
    decreases |outcomes|
  {
    if |outcomes| > 0 {
      PresentFromOutcomes(outcomes[1..]);
      forall e | e in Present(outcomes) ensures Some(e) in outcomes {
        if e in Present(outcomes[1..]) {
          assert Some(e) in outcomes[1..];
        }
      }
    }
  }

  /** The limits after a page and the entries it recorded. */
  datatype Taken = Taken(global: int, creator: int, entries: seq<Entry>)

  /**
   * The loop over one page's posts, each already resolved to its outcome: a
   * post is looked at only while both limits are positive; a post with an
   * entry is recorded and costs one from each limit.
   */
  function TakePosts(global: int, creator: int, outcomes: seq<Option<Entry>>): (r: Taken)
    ensures |r.entries| == global - r.global == creator - r.creator
    ensures global <= 0 || creator <= 0 ==> r.entries == []
    ensures 0 <= global ==> 0 <= r.global
    ensures 0 <= creator ==> 0 <= r.creator
    decreases |outcomes|
  {
    if |outcomes| == 0 then Taken(global, creator, [])
    else if global > 0 && creator > 0 && outcomes[0].Some? then
      var rest := TakePosts(global - 1, creator - 1, outcomes[1..]);
      Taken(rest.global, rest.creator, [outcomes[0].value] + rest.entries)
    else
      TakePosts(global, creator, outcomes[1..])
  }

  /**
   * The files a page records are the first of its entries, in page order, and
   * fewer than all of them only when a limit ran out.
   */
  lemma {:induction false} TakePostsIsPrefix(global: int, creator: int, outcomes: seq<Option<Entry>>)
    ensures var r := TakePosts(global, creator, outcomes);
            && |r.entries| <= |Present(outcomes)|
            && r.entries == Present(outcomes)[..|r.entries|]
            && (|r.entries| == |Present(outcomes)| || r.global <= 0 || r.creator <= 0)
    decreases |outcomes|
  {
    if |outcomes| > 0 {
      var tail := Present(outcomes[1..]);
      if global > 0 && creator > 0 && outcomes[0].Some? {
        TakePostsIsPrefix(global - 1, creator - 1, outcomes[1..]);
        var rest := TakePosts(global - 1, creator - 1, outcomes[1..]);
        var e := outcomes[0].value;
        assert Present(outcomes) == [e] + tail;
        ConsPrefix(e, tail, |rest.entries|);
      } else {
        TakePostsIsPrefix(global, creator, outcomes[1..]);
        if outcomes[0].None? {
          assert Present(outcomes) == tail;
        }
      }
    }
  }

  /** Taking one more element off the front of a sequence extends the prefix by it. */
  lemma ConsPrefix<T>(e: T, tail: seq<T>, n: nat)
    requires n <= |tail|
    ensures ([e] + tail)[..1 + n] == [e] + tail[..n]
  {
  }

  /**
   * Starting from non-negative limits, a page records exactly as many files as
   * the smallest of the two limits and the number of posts with an entry.
   */
  lemma TakeCount(global: int, creator: int, outcomes: seq<Option<Entry>>)
    requires 0 <= global && 0 <= creator
    ensures var n := |TakePosts(global, creator, outcomes).entries|;
            var m := |Present(outcomes)|;
            n <= global && n <= creator && n <= m && (n == global || n == creator || n == m)
  {
    TakePostsIsPrefix(global, creator, outcomes);
  }

  /** Every recorded entry of a page has a non-empty hash outside the cache, taken from one of the page's URLs. */
  lemma PageEntriesAreNew(global: int, creator: int, cached: set<string>, dir: string, urls: seq<Option<string>>)
    ensures forall e :: e in TakePosts(global, creator, Outcomes(cached, dir, urls)).entries ==>
              NewEntry(cached, e) && Some(e.url) in urls
  {
    var outcomes := Outcomes(cached, dir, urls);
    var t := TakePosts(global, creator, outcomes);
    PresentFromOutcomes(outcomes);
    TakePostsIsPrefix(global, creator, outcomes);
    forall e | e in t.entries
      ensures NewEntry(cached, e) && Some(e.url) in urls
    {
      assert e in Present(outcomes);
      OutcomeEntryIsNew(cached, dir, urls, e);
    }
  }

  /** An entry among a page's outcomes is new and comes from one of the page's URLs. */
  lemma OutcomeEntryIsNew(cached: set<string>, dir: string, urls: seq<Option<string>>, e: Entry)
    requires Some(e) in Outcomes(cached, dir, urls)
    ensures NewEntry(cached, e) && Some(e.url) in urls
  {
    var outcomes := Outcomes(cached, dir, urls);
    var k :| 0 <= k < |outcomes| && outcomes[k] == Some(e);
    OutcomeIsNew(cached, dir, urls[k]);
    assert urls[k] in urls;
  }

  /** The entry of one post URL is new and carries that URL. */
  lemma OutcomeIsNew(cached: set<string>, dir: string, url: Option<string>)
    requires Outcome(cached, dir, url).Some?
    ensures var e := Outcome(cached, dir, url).value;
            NewEntry(cached, e) && url == Some(e.url)
  {
  }

  // ---------------------------------------------------------------- cache test

  /** What `FileHash in self.CachedHashes` accepts: the keys of the cache, which are platform names. */
  function CacheTest(cache: Cache): set<string> {
    cache.Keys
  }

  /** The hashes the cache holds for one creator of one platform. */
  function CachedFor(cache: Cache, platform: string, creator: string): (r: set<string>)
    ensures forall h :: h in r <==> platform in cache && creator in cache[platform] && h in cache[platform][creator]
  {
    Hashes(Platform(cache, platform), creator)
  }

  /**
   * As written, the cache decides nothing about real files: a URL whose hash
   * is not a platform name yields an entry whatever hashes the cache holds.
   */
  lemma CacheTestSeesPlatformsOnly(cache: Cache, dir: string, url: Option<string>)
    requires ExtractHash(url).Some? && ExtractHash(url).value != "" && ExtractHash(url).value !in cache
    ensures Outcome(CacheTest(cache), dir, url).Some?
    ensures Outcome(CacheTest(cache), dir, url).value.hash == ExtractHash(url).value
  {
  }

  /**
   * With the lookup per platform and creator, a URL yields an entry exactly
   * when its hash is non-empty and not among that creator's cached hashes.
   */
  lemma CachedForSkipsKnownFiles(cache: Cache, platform: string, creator: string, dir: string, url: Option<string>)
    ensures Outcome(CachedFor(cache, platform, creator), dir, url).Some? <==>
              (&& ExtractHash(url).Some? && ExtractHash(url).value != ""
               && !(platform in cache && creator in cache[platform] && ExtractHash(url).value in cache[platform][creator]))
  {
  }

  /**
   * The file that shows it: with `abc` cached for creator `x` of rule34, the
   * post URL `https://rule34.xxx/abc.jpg` is recorded again as written, and
   * skipped by the per-creator lookup.
   */
  lemma CachedFileRecordedAgain(dir: string)
    ensures var cache: Cache := map["rule34" := map["x" := {"abc"}]];
            var url := Some("https://rule34.xxx/abc.jpg");
            && "abc" in cache["rule34"]["x"]
            && Outcome(CacheTest(cache), dir, url).Some?
            && Outcome(CacheTest(cache), dir, url).value.hash == "abc"
            && Outcome(CachedFor(cache, "rule34", "x"), dir, url) == None
  {
    var cache: Cache := map["rule34" := map["x" := {"abc"}]];
    AbcHash();
    assert "abc" !in cache;
    CacheTestSeesPlatformsOnly(cache, dir, Some("https://rule34.xxx/abc.jpg"));
    assert "abc" in CachedFor(cache, "rule34", "x");
  }

  /** The hash of `https://rule34.xxx/abc.jpg` is `abc`. */
  lemma AbcHash()
    ensures ExtractHash(Some("https://rule34.xxx/abc.jpg")) == Some("abc")
  {
    var url := "https://rule34.xxx/abc.jpg";
    var file := ("abc" + ".") + "jpg";
    assert url == "https://rule34.xxx/" + file;
    assert '/' !in file && '.' !in "jpg";
    LastSegmentAfter("https://rule34.xxx/", file);
    HashBeforeLastDot(url, "abc", "jpg");
  }
}

=== FILE: wrappers.dfy ===
/** The optional value used wherever the program returns `None` or reads a key that may be missing. */
module Wrappers {

  datatype Option<+T> = None | Some(value: T)
}
